=== FILE: README.md ===
# CORNERSPACING clause parser — a Dafny model

OpenROAD's LEF reader hands the text of every `LEF58_CORNERSPACING` layer
property to a small Boost.Spirit grammar. The grammar recognises

```
CORNERSPACING (CONVEXCORNER [SAMEMASK] [CORNERONLY within | CORNERTOCORNER]
                            [EXCEPTEOL eolWidth [EXCEPTJOGLENGTH jogLength [EDGELENGTH edgeLength] [INCLUDELSHAPE]]]
             | CONCAVECORNER [MINLENGTH minLength [EXCEPTNOTCH [notchLength]]])
              [EXCEPTSAMENET | EXCEPTSAMEMETAL]
              (WIDTH width SPACING spacing1 [spacing2])+ ;
```

and fills in a `dbTechLayerCornerSpacingRule` through semantic actions
(setters) as it goes. The rule is created on the layer before parsing and
destroyed again unless the grammar matched and consumed the whole input.

The project models that core:

- `LefTokens` (`lef_tokens.dfy`): the clause as a token sequence
  (`Kw(keyword)`, `Word`, `Num(real)`, `;`). It also holds occurrence
  counting and `Marks`, one bit per keyword, recording which keywords a
  sequence mentions.
- `CornerSpacingRule` (`corner_spacing_rule.dfy`): the rule record and one
  function per setter. The unit conversion `lefinReader::dbdist` is an
  injected function `d: real -> int`.
- `CornerSpacingParser` (`corner_spacing_parser.dfy`): the grammar, written
  as the ordered-choice parser it is. Every component returns whether it
  matched, the rule after the actions that fired, and the rest of the input.
  Like Spirit, an optional group that fails keeps whatever its actions did to
  the rule. The contracts show that no group fails after one of its actions
  fired.
- `CornerSpacingClause` (`corner_spacing_clause.dfy`): an independent
  reference. It is the syntax tree of a clause, with `Render` (the tokens
  the clause is written as) and `Build` (the setters applied to a fresh rule
  in grammar order).
- `ClauseParsing` (`clause_parsing.dfy`): the parser agrees with the
  reference in both directions. The tokens of every well-formed clause parse
  to exactly `Build` of it. Every successful parse is the rendering of a
  clause and yields that clause's `Build`.
- `CornerSpacingProperties`, `ClauseTable`, `ClauseValues`
  (`corner_spacing_properties.dfy`, `clause_table.dfy`, `clause_values.dfy`):
  what an accepted clause guarantees, stated over the accepted tokens:
  - full consumption;
  - the structural invariants (branch exclusivity, corner mode, modifier
    nesting, except-same);
  - flags mirror keywords;
  - the spacing table;
  - each value is the converted number after its keyword.
- `LayerCommit` (`layer_commit.dfy`): create, parse, destroy-on-failure, on a
  layer whose corner-spacing rules are a sequence. It includes reading
  several clauses into one layer.
- `ClauseExamples` (`clause_examples.dfy`): two accepted and two rejected
  concrete clauses.

## Model

| member | source | states |
|---|---|---|
| CornerSpacingRule.AddSpacing | src/odb/src/lefin/lefTechLayerCornerSpacingParser.cpp:80-93 | adds exactly one row after the existing rows, leaves every other field alone; the row holds the converted width and spacing1, and spacing2 is the converted third number when given, otherwise equal to the converted spacing1 |
| ClauseValues.ModeMeasures | src/odb/src/lefin/lefTechLayerCornerSpacingParser.cpp:38-44 | CORNERONLY w sets cornerOnly and within = dbdist(w) together and touches no other measured value; CORNERTOCORNER and no mode leave the measures unchanged |
| ClauseValues.EolWidthMeasures | src/odb/src/lefin/lefTechLayerCornerSpacingParser.cpp:45-51 | the EXCEPTEOL action sets exceptEol and eolWidth = dbdist(v) together, nothing else measured changes |
| ClauseValues.JogLengthMeasures | src/odb/src/lefin/lefTechLayerCornerSpacingParser.cpp:52-58 | the EXCEPTJOGLENGTH action sets exceptJogLength and jogLength = dbdist(v) together, nothing else measured changes |
| ClauseValues.EdgeMeasures | src/odb/src/lefin/lefTechLayerCornerSpacingParser.cpp:59-65 | an EDGELENGTH group sets edgeLengthValid and edgeLength = dbdist(v) together; without the group nothing measured changes |
| ClauseValues.MinLengthMeasures | src/odb/src/lefin/lefTechLayerCornerSpacingParser.cpp:66-72 | a MINLENGTH block sets minLengthValid and minLength = dbdist(v), plus the notch length its EXCEPTNOTCH part states; without the block nothing measured changes |
| ClauseValues.NotchLengthMeasures | src/odb/src/lefin/lefTechLayerCornerSpacingParser.cpp:73-79 | the notch-length action sets exceptNotchLengthValid and exceptNotchLength = dbdist(v) together, nothing else measured changes |
| ClauseValues.NotchMeasures | src/odb/src/lefin/lefTechLayerCornerSpacingParser.cpp:132-137 | EXCEPTNOTCH alone records no notch length; EXCEPTNOTCH v records dbdist(v) |
| CornerSpacingProperties.SetWithinMarks | src/odb/src/lefin/lefTechLayerCornerSpacingParser.cpp:38-44 | the CORNERONLY action records exactly the keyword CORNERONLY on top of what the rule already recorded |
| CornerSpacingProperties.SetExceptNotchLengthMarks | src/odb/src/lefin/lefTechLayerCornerSpacingParser.cpp:73-79 | the notch-length action records no keyword of its own |
| CornerSpacingParser.ParseSameMask | src/odb/src/lefin/lefTechLayerCornerSpacingParser.cpp:107-108 | matches exactly when the next token is SAMEMASK; on failure it consumes nothing and fires no action; keeps corner type and table |
| CornerSpacingParser.ParseCornerMode | src/odb/src/lefin/lefTechLayerCornerSpacingParser.cpp:109-114 | on failure nothing is consumed or set; on a match from a rule with neither mode, exactly one of cornerOnly and cornerToCorner is set |
| CornerSpacingParser.ParseEdgeLength | src/odb/src/lefin/lefTechLayerCornerSpacingParser.cpp:119-120 | a failed EDGELENGTH group consumes nothing and fires no action |
| CornerSpacingParser.ParseIncludeShape | src/odb/src/lefin/lefTechLayerCornerSpacingParser.cpp:121-124 | a failed INCLUDELSHAPE consumes nothing and fires no action |
| CornerSpacingParser.ParseExceptJogLength | src/odb/src/lefin/lefTechLayerCornerSpacingParser.cpp:117-124 | fails without side effects, or matches with exceptJogLength set; keeps corner type and table |
| CornerSpacingParser.ParseExceptEol | src/odb/src/lefin/lefTechLayerCornerSpacingParser.cpp:115-124 | fails without side effects, or matches with exceptEol set; keeps corner type and table |
| CornerSpacingParser.ParseConvexModifiers | src/odb/src/lefin/lefTechLayerCornerSpacingParser.cpp:107-124 | the optional convex modifiers always match, never grow the input, keep the corner type and the table |
| CornerSpacingParser.ParseConvexCorner | src/odb/src/lefin/lefTechLayerCornerSpacingParser.cpp:102-124 | matches exactly when the next token is CONVEXCORNER, then with a convex type and the table unchanged; fails without side effects |
| CornerSpacingParser.ParseExceptNotch | src/odb/src/lefin/lefTechLayerCornerSpacingParser.cpp:132-137 | a failed EXCEPTNOTCH group consumes nothing and fires no action |
| CornerSpacingParser.ParseMinLength | src/odb/src/lefin/lefTechLayerCornerSpacingParser.cpp:130-137 | a failed MINLENGTH block consumes nothing and fires no action |
| CornerSpacingParser.ParseConcaveCorner | src/odb/src/lefin/lefTechLayerCornerSpacingParser.cpp:125-137 | matches exactly when the next token is CONCAVECORNER, then with a concave type and the table unchanged; fails without side effects |
| CornerSpacingParser.ParseCorner | src/odb/src/lefin/lefTechLayerCornerSpacingParser.cpp:151 | the alternative matches exactly when the next token is CONVEXCORNER or CONCAVECORNER; a failure leaves no trace of the first branch |
| CornerSpacingParser.ParseExceptSame | src/odb/src/lefin/lefTechLayerCornerSpacingParser.cpp:138-144 | fails without side effects; a match sets exactly one of exceptSameNet and exceptSameMetal on a rule with neither |
| CornerSpacingParser.ParseSpacing | src/odb/src/lefin/lefTechLayerCornerSpacingParser.cpp:146-148 | a WIDTH group appends exactly one row and keeps the earlier rows; a failed group fires no action |
| CornerSpacingParser.ParseSpacings | src/odb/src/lefin/lefTechLayerCornerSpacingParser.cpp:152 | one or more WIDTH groups: a match adds at least one row and keeps the earlier rows as a prefix |
| CornerSpacingParser.ParseCornerSpacing | src/odb/src/lefin/lefTechLayerCornerSpacingParser.cpp:150-152 | a match consumes input and adds at least one row; a failure reports the input as not consumed |
| CornerSpacingParser.Parse | src/odb/src/lefin/lefTechLayerCornerSpacingParser.cpp:154-155 | an accepted clause starts with CORNERSPACING and has a non-empty table |
| CornerSpacingClause.BuildEntriesAppendsTable | src/odb/src/lefin/lefTechLayerCornerSpacingParser.cpp:146-152 | the WIDTH groups append their rows, in order, after the existing table and change nothing else |
| CornerSpacingClause.BuildConsistent | src/odb/src/lefin/lefTechLayerCornerSpacingParser.cpp:102-152 | the rule of every well-formed clause keeps the structural invariants |
| ClauseParsing.ClauseRendered | src/odb/src/lefin/lefTechLayerCornerSpacingParser.cpp:150-152 | completeness: the tokens of any well-formed clause, followed by anything, match the grammar up to and including ";" and yield exactly the rule the clause builds |
| ClauseParsing.ClauseParsed | src/odb/src/lefin/lefTechLayerCornerSpacingParser.cpp:150-152 | soundness: whatever the grammar matches is the rendering of a well-formed clause, and the actions built exactly that clause's rule |
| CornerSpacingProperties.ParseRender | src/odb/src/lefin/lefTechLayerCornerSpacingParser.cpp:150-155 | the tokens of every well-formed clause are accepted with the clause's rule |
| CornerSpacingProperties.ParseSound | src/odb/src/lefin/lefTechLayerCornerSpacingParser.cpp:150-155 | every accepted input is exactly the rendering of a well-formed clause whose rule is the one returned |
| CornerSpacingProperties.AcceptedIffClause | src/odb/src/lefin/lefTechLayerCornerSpacingParser.cpp:150-155 | an input is accepted if and only if it is the rendering of a well-formed clause |
| CornerSpacingProperties.TrailingTokensRejected | src/odb/src/lefin/lefTechLayerCornerSpacingParser.cpp:154-155 | full consumption: any token after the ";" of an accepted clause makes the input rejected |
| CornerSpacingProperties.ParsedRuleConsistent | src/odb/src/lefin/lefTechLayerCornerSpacingParser.cpp:102-152 | an accepted rule keeps branch exclusivity, CORNERONLY/CORNERTOCORNER exclusivity, the modifier nesting, except-same exclusivity and a non-empty table |
| CornerSpacingProperties.CornerTypeFromKeyword | src/odb/src/lefin/lefTechLayerCornerSpacingParser.cpp:151 | the type is convex exactly when the token after CORNERSPACING is CONVEXCORNER, and concave exactly when it is CONCAVECORNER |
| CornerSpacingProperties.BuildMarks | src/odb/src/lefin/lefTechLayerCornerSpacingParser.cpp:102-152 | the rule a clause builds records exactly the keywords the clause's tokens mention |
| CornerSpacingProperties.KeywordsRecorded | src/odb/src/lefin/lefTechLayerCornerSpacingParser.cpp:102-152 | in an accepted clause each keyword occurs if and only if the rule records it (corner type, non-empty table, or the modifier's flag) |
| ClauseTable.BuildTable | src/odb/src/lefin/lefTechLayerCornerSpacingParser.cpp:146-152 | the rule of a clause holds exactly the rows of its WIDTH groups, in order |
| ClauseTable.ParsedTable | src/odb/src/lefin/lefTechLayerCornerSpacingParser.cpp:146-152 | an accepted table has one row per WIDTH keyword; the table is exactly the rows of the WIDTH groups that close the clause, in input order, with the spacing2 default |
| ClauseTable.ExceptSameOnce | src/odb/src/lefin/lefTechLayerCornerSpacingParser.cpp:138-144 | an accepted clause contains EXCEPTSAMENET and EXCEPTSAMEMETAL at most once in total; the clause splits into a WIDTH-free part followed by one or more WIDTH groups and ";", and neither keyword occurs inside those groups, so any occurrence comes before the first WIDTH |
| ClauseValues.BuildMeasures | src/odb/src/lefin/lefTechLayerCornerSpacingParser.cpp:38-79 | the measured values of a clause's rule are exactly the converted numbers its corner part states, each with its flag |
| ClauseValues.MeasuresFollowKeywords | src/odb/src/lefin/lefTechLayerCornerSpacingParser.cpp:109-137 | in an accepted clause every set value (within, eolWidth, jogLength, edgeLength, minLength, exceptNotchLength) is dbdist of the number right after its keyword |
| ClauseValues.MeasuredIffKeyword | src/odb/src/lefin/lefTechLayerCornerSpacingParser.cpp:109-137 | in an accepted clause each value is present exactly when its keyword occurs; a notch length only when EXCEPTNOTCH occurs |
| LayerCommit.Destroy | src/odb/src/lefin/lefTechLayerCornerSpacingParser.cpp:157-159 | destroying a rule removes exactly that rule and keeps the order of the others |
| LayerCommit.ReadClauseCommitsOrRollsBack | src/odb/src/lefin/lefTechLayerCornerSpacingParser.cpp:100-161 | create, parse, destroy: the result is true exactly when the clause is accepted; then the layer gains exactly the parsed rule after its existing rules, otherwise it is left unchanged |
| LayerCommit.CommittedRuleConsistent | src/odb/src/lefin/lefTechLayerCornerSpacingParser.cpp:154-161 | a committed rule keeps the structural invariants and is the one new rule of the layer |
| LayerCommit.ReadClauses | src/odb/src/lefin/lefTechLayerCornerSpacingParser.cpp:154-161 | reading clauses one after another grows the layer by one rule per accepted clause, never touches earlier rules, and every added rule keeps the invariants |
| ClauseExamples.ConvexCornerToCornerAccepted | src/odb/src/lefin/lefTechLayerCornerSpacingParser.cpp:102-152 | CORNERSPACING CONVEXCORNER CORNERTOCORNER WIDTH 0.1 SPACING 0.2 0.3 ; yields the convex corner-to-corner rule with the single row (d(0.1), d(0.2), d(0.3)) |
| ClauseExamples.ConcaveNotchAccepted | src/odb/src/lefin/lefTechLayerCornerSpacingParser.cpp:125-152 | CORNERSPACING CONCAVECORNER MINLENGTH 0.5 EXCEPTNOTCH WIDTH 1 SPACING 2 ; sets exceptNotch without a notch length and repeats the spacing |
| ClauseExamples.MissingTableRejected | src/odb/src/lefin/lefTechLayerCornerSpacingParser.cpp:152 | a clause without a WIDTH group is rejected |
| ClauseExamples.UnknownCornerRejected | src/odb/src/lefin/lefTechLayerCornerSpacingParser.cpp:151 | a clause whose corner keyword is neither CONVEXCORNER nor CONCAVECORNER is rejected |

## Left out

- Character-level matching is abstracted into tokens. `lit()` matches a
  keyword as a prefix, with no word boundary, so `CONVEXCORNERX` is read as
  `CONVEXCORNER` followed by the word `X`. The model's lexing into whole
  `Kw`/`Word` tokens does not capture this.
- The model covers exactly those inputs that read as a sequence of whole
  tokens. Every keyword is followed by whitespace, `;` or the end of the
  input. Every number is a decimal literal that Qi's `double_` accepts,
  that is one whose value lies within the range of a `double`. Every
  number is followed by whitespace, `;` or the end of the input, so
  `SPACING 0.10;` is covered. Inputs outside that reading are not
  modelled; the three cases below are among them.
- Literals out of the range of a `double` are accepted by the model,
  although the source rejects them. `double_` refuses a literal whose
  exponent overflows, such as `WIDTH 1e400`, so the WIDTH group at :146-148
  fails, `+(spacingRule)` at :152 fails and the rule is destroyed at
  :157-158. `Num(real)` has no range bound, so `Parse` accepts the clause
  with `Num(1e400)`.
- The whitespace skipper is abstracted by working over tokens.
- `double_` decimal parsing is floating point. Numbers are abstract
  `Num(real)` tokens, which are always finite reals. A token keeps the
  literal's exact value, not the nearest `double`; that rounding is
  folded into the conversion `d` below.
- `double_` also accepts `nan`, `inf` and `infinity` in any letter case.
  The source therefore accepts, for example, `EXCEPTNOTCH inf` at :135-136.
  No `Num(real)` token stands for these values, so the model does not cover
  such clauses: read as a word, `inf` makes `Parse` return None.
- Adjacent numbers without whitespace between them are not modelled.
  `double_ >> -double_` at :147-148 reads `SPACING 2.5.5` as spacing1 2.5
  and spacing2 .5. A token reading cannot split one number token into two.
- `lefinReader::dbdist` scales and rounds to database units in floating
  point. It is the parameter `d`; no property depends on its definition.
- The `dbTechLayerCornerSpacingRule` class, `create` and `destroy`, and odb
  storage are not part of this model. A layer's corner-spacing rules are a
  `seq<Rule>`, creation appends, and destruction removes by index. The
  defaults of a freshly created rule (`NewRule`: flags false, values 0,
  table empty, type convex) are assumed. Every accepted clause sets the type.
- The string wrapper (:167-172) only turns the string into an iterator pair.
  It is modelled as the token-level entry point `ReadClause`.
- Diagnostics and the other LEF58 property parsers are not part of this
  model.
- ClauseValues.MeasuresFollowKeywords: states that some occurrence of the
  keyword is followed by the value. It does not separately prove that the
  keyword occurs only once in the clause.

=== FILE: clause_examples.dfy ===
/**
 * Concrete clauses: two accepted ones with the rules they yield, and two
 * rejected ones (no WIDTH group; an unknown corner keyword).
 */
module ClauseExamples {
  import opened Wrappers
  import opened LefTokens
  import opened CornerSpacingRule
  import opened CornerSpacingParser
  import opened CornerSpacingClause
  import opened CornerSpacingProperties

  /** CORNERSPACING CONVEXCORNER CORNERTOCORNER WIDTH 0.1 SPACING 0.2 0.3 ; as a clause. */
  function ConvexExample(): Clause
  {
    Clause(Convex(false, CornerToCorner, None), NoExceptSame, [Entry(0.1, 0.2, Some(0.3))])
  }

  lemma ConvexExampleBuilds(d: Dbdist)
    ensures Build(ConvexExample(), d)
            == NewRule().(cornerType := CornerType.ConvexCorner, cornerToCorner := true,
                          spacings := [SpacingEntry(d(0.1), d(0.2), d(0.3))])
  {
    var c := ConvexExample();
    var k := SetCornerToCorner(SetType(NewRule(), CornerType.ConvexCorner));
    assert BuildCorner(c.corner, NewRule(), d) == k;
    BuildEntriesAppendsTable(c.entries, k, d);
    assert k.spacings + Table(c.entries, d) == [SpacingEntry(d(0.1), d(0.2), d(0.3))];
  }

  lemma ConvexExampleTokens()
    ensures Render(ConvexExample()) == [Kw(CORNERSPACING), Kw(CONVEXCORNER), Kw(CORNERTOCORNER),
                                        Kw(WIDTH), Num(0.1), Kw(SPACING), Num(0.2), Num(0.3), Semi]
  {
  }

  /** ConvexExample renders as the listed tokens; they are accepted, and yield a convex corner-to-corner
      rule with the one row (d(0.1), d(0.2), d(0.3)). */
  lemma ConvexCornerToCornerAccepted(d: Dbdist)
    ensures Render(ConvexExample()) == [Kw(CORNERSPACING), Kw(CONVEXCORNER), Kw(CORNERTOCORNER),
                                        Kw(WIDTH), Num(0.1), Kw(SPACING), Num(0.2), Num(0.3), Semi]
    ensures Parse(Render(ConvexExample()), d)
            == Some(NewRule().(cornerType := CornerType.ConvexCorner, cornerToCorner := true,
                               spacings := [SpacingEntry(d(0.1), d(0.2), d(0.3))]))
  {
    ConvexExampleTokens();
    ParseRender(ConvexExample(), d);
    ConvexExampleBuilds(d);
  }

  /** CORNERSPACING CONCAVECORNER MINLENGTH 0.5 EXCEPTNOTCH WIDTH 1 SPACING 2 ; as a clause. */
  function ConcaveExample(): Clause
  {
    Clause(Concave(Some(MinLengthBlock(0.5, Some(NotchExcept(None))))), NoExceptSame, [Entry(1.0, 2.0, None)])
  }

  lemma ConcaveExampleBuilds(d: Dbdist)
    ensures Build(ConcaveExample(), d)
            == NewRule().(cornerType := CornerType.ConcaveCorner, minLengthValid := true, minLength := d(0.5),
                          exceptNotch := true, spacings := [SpacingEntry(d(1.0), d(2.0), d(2.0))])
  {
    var c := ConcaveExample();
    var k := SetExceptNotch(SetMinLength(SetType(NewRule(), CornerType.ConcaveCorner), 0.5, d));
    assert BuildCorner(c.corner, NewRule(), d) == k;
    BuildEntriesAppendsTable(c.entries, k, d);
    assert k.spacings + Table(c.entries, d) == [SpacingEntry(d(1.0), d(2.0), d(2.0))];
  }

  lemma ConcaveExampleTokens()
    ensures Render(ConcaveExample()) == [Kw(CORNERSPACING), Kw(CONCAVECORNER), Kw(MINLENGTH), Num(0.5),
                                         Kw(EXCEPTNOTCH), Kw(WIDTH), Num(1.0), Kw(SPACING), Num(2.0), Semi]
  {
  }

  /** ConcaveExample renders as the listed tokens; they are accepted: the notch flag is set without a
      notch length, and the omitted second spacing repeats the first. */
  lemma ConcaveNotchAccepted(d: Dbdist)
    ensures Render(ConcaveExample()) == [Kw(CORNERSPACING), Kw(CONCAVECORNER), Kw(MINLENGTH), Num(0.5),
                                         Kw(EXCEPTNOTCH), Kw(WIDTH), Num(1.0), Kw(SPACING), Num(2.0), Semi]
    ensures Parse(Render(ConcaveExample()), d)
            == Some(NewRule().(cornerType := CornerType.ConcaveCorner, minLengthValid := true,
                               minLength := d(0.5), exceptNotch := true,
                               spacings := [SpacingEntry(d(1.0), d(2.0), d(2.0))]))
  {
    ConcaveExampleTokens();
    ParseRender(ConcaveExample(), d);
    ConcaveExampleBuilds(d);
  }

  /** CORNERSPACING CONVEXCORNER ; has no WIDTH group and is rejected. */
  lemma MissingTableRejected(d: Dbdist)
    ensures Parse([Kw(CORNERSPACING), Kw(CONVEXCORNER), Semi], d).None?
  {
    var ts := [Kw(CORNERSPACING), Kw(CONVEXCORNER), Semi];
    assert ts[1..][1..] == [Semi];
  }

  /** CORNERSPACING TRIANGLECORNER WIDTH 1 SPACING 2 ; is rejected at the corner keyword. */
  lemma UnknownCornerRejected(d: Dbdist)
    ensures Parse([Kw(CORNERSPACING), Word("TRIANGLECORNER"), Kw(WIDTH), Num(1.0), Kw(SPACING), Num(2.0), Semi], d).None?
  {
    var ts := [Kw(CORNERSPACING), Word("TRIANGLECORNER"), Kw(WIDTH), Num(1.0), Kw(SPACING), Num(2.0), Semi];
    assert !StartsWith(ts[1..], Kw(CONVEXCORNER)) && !StartsWith(ts[1..], Kw(CONCAVECORNER));
  }
}

=== FILE: clause_parsing.dfy ===
/**
 * The parser with its semantic actions agrees with the clause syntax:
 * parsing the tokens of a clause yields exactly the rule the clause builds
 * (completeness), and every successful parse is the rendering of some clause
 * whose built rule is the one the actions produced (soundness).
 */
module ClauseParsing {
  import opened Wrappers
  import opened LefTokens
  import opened CornerSpacingRule
  import opened CornerSpacingParser
  import opened CornerSpacingClause

  /** What can follow the corner part of a clause: an except-same keyword or
      the first WIDTH group. */
  predicate CornerFollow(rest: seq<Token>)
  {
    StartsWith(rest, Kw(WIDTH)) || StartsWith(rest, Kw(EXCEPTSAMENET)) || StartsWith(rest, Kw(EXCEPTSAMEMETAL))
  }

  // --------------------------------------------------------- completeness

  lemma SameMaskRendered(b: bool, rest: seq<Token>, r: Rule)
    requires !StartsWith(rest, Kw(SAMEMASK))
    ensures Optional(ParseSameMask(RenderFlag(b, SAMEMASK) + rest, r), RenderFlag(b, SAMEMASK) + rest)
            == Step(true, BuildSameMask(b, r), rest)
  {
    if b {
      assert (RenderFlag(b, SAMEMASK) + rest)[1..] == rest;
    }
  }

  lemma ModeRendered(m: CornerMode, rest: seq<Token>, r: Rule, d: Dbdist)
    requires !StartsWith(rest, Kw(CORNERONLY)) && !StartsWith(rest, Kw(CORNERTOCORNER))
    ensures Optional(ParseCornerMode(RenderMode(m) + rest, r, d), RenderMode(m) + rest)
            == Step(true, BuildMode(m, r, d), rest)
  {
    var ts := RenderMode(m) + rest;
    match m
    case NoCornerMode =>
      assert ts == rest;
    case CornerOnly(w) =>
      assert ts[1..] == [Num(w)] + rest;
      assert ts[2..] == rest;
    case CornerToCorner =>
      assert ts[1..] == rest;
  }

  lemma EdgeRendered(v: Option<real>, rest: seq<Token>, r: Rule, d: Dbdist)
    requires !StartsWith(rest, Kw(EDGELENGTH))
    ensures Optional(ParseEdgeLength(RenderEdge(v) + rest, r, d), RenderEdge(v) + rest)
            == Step(true, BuildEdge(v, r, d), rest)
  {
    if v.Some? {
      var ts := RenderEdge(v) + rest;
      assert ts[1..] == [Num(v.value)] + rest;
      assert ts[2..] == rest;
    }
  }

  lemma IncludeShapeRendered(b: bool, rest: seq<Token>, r: Rule)
    requires !StartsWith(rest, Kw(INCLUDELSHAPE))
    ensures Optional(ParseIncludeShape(RenderFlag(b, INCLUDELSHAPE) + rest, r), RenderFlag(b, INCLUDELSHAPE) + rest)
            == Step(true, BuildIncludeShape(b, r), rest)
  {
    if b {
      assert (RenderFlag(b, INCLUDELSHAPE) + rest)[1..] == rest;
    }
  }

  /** The tokens of an EXCEPTJOGLENGTH group: keyword, number, then the optional parts. */
  lemma JogTokens(j: JogExcept, rest: seq<Token>)
    requires CornerFollow(rest)
    ensures var shapeRest := RenderFlag(j.includeShape, INCLUDELSHAPE) + rest;
      var ts := RenderJog(Some(j)) + rest;
      && |ts| > 2 && ts[0] == Kw(EXCEPTJOGLENGTH) && ts[1] == Num(j.jogLength)
      && ts[2..] == RenderEdge(j.edgeLength) + shapeRest
      && !StartsWith(shapeRest, Kw(EDGELENGTH)) && !StartsWith(rest, Kw(INCLUDELSHAPE))
  {
    var shapeRest := RenderFlag(j.includeShape, INCLUDELSHAPE) + rest;
    var ts := RenderJog(Some(j)) + rest;
    assert ts == [Kw(EXCEPTJOGLENGTH), Num(j.jogLength)] + (RenderEdge(j.edgeLength) + shapeRest);
    assert shapeRest[0] != Kw(EDGELENGTH);
  }

  lemma JogRendered(j: Option<JogExcept>, rest: seq<Token>, r: Rule, d: Dbdist)
    requires CornerFollow(rest)
    ensures Optional(ParseExceptJogLength(RenderJog(j) + rest, r, d), RenderJog(j) + rest)
            == Step(true, BuildJog(j, r, d), rest)
  {
    if j.Some? {
      var shapeRest := RenderFlag(j.value.includeShape, INCLUDELSHAPE) + rest;
      JogTokens(j.value, rest);
      var jog := SetJogLength(r, j.value.jogLength, d);
      EdgeRendered(j.value.edgeLength, shapeRest, jog, d);
      IncludeShapeRendered(j.value.includeShape, rest, BuildEdge(j.value.edgeLength, jog, d));
    }
  }

  /** The tokens of an EXCEPTEOL group: keyword, number, then the optional jog group. */
  lemma EolTokens(e: EolExcept, rest: seq<Token>)
    ensures var ts := RenderEol(Some(e)) + rest;
      && |ts| > 1 && ts[0] == Kw(EXCEPTEOL) && ts[1] == Num(e.eolWidth) && ts[2..] == RenderJog(e.jog) + rest
  {
    AppendAssoc([Kw(EXCEPTEOL), Num(e.eolWidth)], RenderJog(e.jog), rest);
  }

  lemma EolRendered(e: Option<EolExcept>, rest: seq<Token>, r: Rule, d: Dbdist)
    requires CornerFollow(rest)
    ensures Optional(ParseExceptEol(RenderEol(e) + rest, r, d), RenderEol(e) + rest)
            == Step(true, BuildEol(e, r, d), rest)
  {
    if e.Some? {
      EolTokens(e.value, rest);
      JogRendered(e.value.jog, rest, SetEolWidth(r, e.value.eolWidth, d), d);
    }
  }

  /** The tokens of an EXCEPTNOTCH group: keyword, then the optional length. */
  lemma NotchTokens(n: NotchExcept, rest: seq<Token>)
    ensures var ts := RenderNotch(Some(n)) + rest;
      && |ts| >= 1 && ts[0] == Kw(EXCEPTNOTCH) && ts[1..] == OptNum(n.notchLength) + rest
  {
    AppendAssoc([Kw(EXCEPTNOTCH)], OptNum(n.notchLength), rest);
  }

  lemma NotchRendered(n: Option<NotchExcept>, rest: seq<Token>, r: Rule, d: Dbdist)
    requires CornerFollow(rest)
    ensures Optional(ParseExceptNotch(RenderNotch(n) + rest, r, d), RenderNotch(n) + rest)
            == Step(true, BuildNotch(n, r, d), rest)
  {
    if n.Some? {
      var ts := RenderNotch(n) + rest;
      NotchTokens(n.value, rest);
      if n.value.notchLength.Some? {
        assert ts[1] == Num(n.value.notchLength.value) && ts[2..] == rest by {
          assert (OptNum(n.value.notchLength) + rest)[1..] == rest;
        }
      }
    }
  }

  /** The tokens of a MINLENGTH block: keyword, number, then the optional notch group. */
  lemma MinLengthTokens(b: MinLengthBlock, rest: seq<Token>)
    ensures var ts := RenderMinLength(Some(b)) + rest;
      && |ts| > 1 && ts[0] == Kw(MINLENGTH) && ts[1] == Num(b.minLength) && ts[2..] == RenderNotch(b.notch) + rest
  {
    AppendAssoc([Kw(MINLENGTH), Num(b.minLength)], RenderNotch(b.notch), rest);
  }

  lemma MinLengthRendered(b: Option<MinLengthBlock>, rest: seq<Token>, r: Rule, d: Dbdist)
    requires CornerFollow(rest)
    ensures Optional(ParseMinLength(RenderMinLength(b) + rest, r, d), RenderMinLength(b) + rest)
            == Step(true, BuildMinLength(b, r, d), rest)
  {
    if b.Some? {
      MinLengthTokens(b.value, rest);
      NotchRendered(b.value.notch, rest, SetMinLength(r, b.value.minLength, d), d);
    }
  }

  /** The tokens after a convex corner's SAMEMASK start with none of the
      keywords an earlier convex modifier could take. */
  lemma ConvexTailFollow(mode: CornerMode, eol: Option<EolExcept>, rest: seq<Token>)
    requires CornerFollow(rest)
    ensures !StartsWith(RenderEol(eol) + rest, Kw(CORNERONLY))
    ensures !StartsWith(RenderEol(eol) + rest, Kw(CORNERTOCORNER))
    ensures !StartsWith(RenderMode(mode) + (RenderEol(eol) + rest), Kw(SAMEMASK))
  {
    var eolRest := RenderEol(eol) + rest;
    if eol.Some? {
      assert eolRest[0] == Kw(EXCEPTEOL);
    } else {
      assert eolRest == rest;
    }
    if mode.NoCornerMode? {
      assert RenderMode(mode) + eolRest == eolRest;
    } else {
      assert (RenderMode(mode) + eolRest)[0] == RenderMode(mode)[0];
    }
  }

  lemma ConvexModifiersRendered(b: bool, m: CornerMode, e: Option<EolExcept>, rest: seq<Token>, r: Rule, d: Dbdist)
    requires CornerFollow(rest)
    ensures ParseConvexModifiers(RenderFlag(b, SAMEMASK) + (RenderMode(m) + (RenderEol(e) + rest)), r, d)
            == Step(true, BuildEol(e, BuildMode(m, BuildSameMask(b, r), d), d), rest)
  {
    var eolRest := RenderEol(e) + rest;
    var modeRest := RenderMode(m) + eolRest;
    var ts := RenderFlag(b, SAMEMASK) + modeRest;
    var masked := BuildSameMask(b, r);
    var moded := BuildMode(m, masked, d);
    var mask := Optional(ParseSameMask(ts, r), ts);
    assert mask == Step(true, masked, modeRest) by {
      ConvexTailFollow(m, e, rest);
      SameMaskRendered(b, modeRest, r);
    }
    var mode := Optional(ParseCornerMode(mask.rest, mask.rule, d), mask.rest);
    assert mode == Step(true, moded, eolRest) by {
      ConvexTailFollow(m, e, rest);
      ModeRendered(m, eolRest, masked, d);
    }
    EolRendered(e, rest, moded, d);
  }

  lemma ConvexRendered(sameMask: bool, mode: CornerMode, eol: Option<EolExcept>, rest: seq<Token>, r: Rule, d: Dbdist)
    requires CornerFollow(rest)
    ensures ParseConvexCorner(RenderCorner(Convex(sameMask, mode, eol)) + rest, r, d)
            == Step(true, BuildCorner(Convex(sameMask, mode, eol), r, d), rest)
  {
    var f, mo, eo := RenderFlag(sameMask, SAMEMASK), RenderMode(mode), RenderEol(eol);
    var ts := RenderCorner(Convex(sameMask, mode, eol)) + rest;
    assert ts[1..] == f + (mo + (eo + rest)) by {
      DropFirst(Kw(CONVEXCORNER), f + (mo + eo), rest);
      AppendAssoc(mo, eo, rest);
      AppendAssoc(f, mo + eo, rest);
    }
    ConvexModifiersRendered(sameMask, mode, eol, rest, SetType(r, CornerType.ConvexCorner), d);
  }

  lemma ConcaveRendered(block: Option<MinLengthBlock>, rest: seq<Token>, r: Rule, d: Dbdist)
    requires CornerFollow(rest)
    ensures ParseConcaveCorner(RenderCorner(Concave(block)) + rest, r, d)
            == Step(true, BuildCorner(Concave(block), r, d), rest)
  {
    var ts := RenderCorner(Concave(block)) + rest;
    assert ts[1..] == RenderMinLength(block) + rest;
    MinLengthRendered(block, rest, SetType(r, CornerType.ConcaveCorner), d);
  }

  lemma CornerRendered(k: Corner, rest: seq<Token>, r: Rule, d: Dbdist)
    requires CornerFollow(rest)
    ensures ParseCorner(RenderCorner(k) + rest, r, d) == Step(true, BuildCorner(k, r, d), rest)
  {
    match k
    case Convex(sameMask, mode, eol) =>
      ConvexRendered(sameMask, mode, eol, rest, r, d);
    case Concave(block) =>
      ConcaveRendered(block, rest, r, d);
      assert !ParseConvexCorner(RenderCorner(k) + rest, r, d).matched;
  }

  lemma ExceptSameRendered(x: ExceptSame, rest: seq<Token>, r: Rule)
    requires StartsWith(rest, Kw(WIDTH))
    ensures Optional(ParseExceptSame(RenderExceptSame(x) + rest, r), RenderExceptSame(x) + rest)
            == Step(true, BuildExceptSame(x, r), rest)
  {
    if x != NoExceptSame {
      assert (RenderExceptSame(x) + rest)[1..] == rest;
    }
  }

  /** The tokens of a WIDTH group: four fixed tokens, then the optional second spacing. */
  lemma EntryTokens(e: Entry, rest: seq<Token>)
    ensures var ts := RenderEntry(e) + rest;
      && |ts| >= 4 && ts[0] == Kw(WIDTH) && ts[1] == Num(e.width) && ts[2] == Kw(SPACING)
      && ts[3] == Num(e.spacing1) && ts[4..] == OptNum(e.spacing2) + rest
  {
    AppendAssoc([Kw(WIDTH), Num(e.width), Kw(SPACING), Num(e.spacing1)], OptNum(e.spacing2), rest);
  }

  lemma SpacingRendered(e: Entry, rest: seq<Token>, r: Rule, d: Dbdist)
    requires !StartsWithNum(rest)
    ensures ParseSpacing(RenderEntry(e) + rest, r, d)
            == Step(true, AddSpacing(r, e.width, e.spacing1, e.spacing2, d), rest)
  {
    var ts := RenderEntry(e) + rest;
    EntryTokens(e, rest);
    if e.spacing2.Some? {
      assert ts[4] == Num(e.spacing2.value) && ts[5..] == rest by {
        assert (OptNum(e.spacing2) + rest)[1..] == rest;
      }
    }
  }

  lemma {:induction false} SpacingsRendered(es: seq<Entry>, rest: seq<Token>, r: Rule, d: Dbdist)
    requires |es| > 0 && StartsWith(rest, Semi)
    ensures ParseSpacings(RenderEntries(es) + rest, r, d) == Step(true, BuildEntries(es, r, d), rest)
  {
    var more := RenderEntries(es[1..]) + rest;
    assert RenderEntries(es) + rest == RenderEntry(es[0]) + more;
    assert !StartsWithNum(more) by {
      if |es| > 1 {
        assert more[0] == Kw(WIDTH);
      } else {
        assert more == rest;
      }
    }
    SpacingRendered(es[0], more, r, d);
    var r1 := AddSpacing(r, es[0].width, es[0].spacing1, es[0].spacing2, d);
    if |es| > 1 {
      SpacingsRendered(es[1..], rest, r1, d);
    } else {
      assert more == rest;
      assert !ParseSpacing(rest, r1, d).matched;
    }
  }

  /** A clause's tokens: CORNERSPACING, then the corner, except-same, table and ";" groups. */
  lemma RenderedClauseTokens(c: Clause, rest: seq<Token>)
    ensures var ts := Render(c) + rest;
      && |ts| > 0 && ts[0] == Kw(CORNERSPACING)
      && ts[1..] == RenderCorner(c.corner)
           + (RenderExceptSame(c.exceptSame) + (RenderEntries(c.entries) + ([Semi] + rest)))
  {
    var rk, rx, re := RenderCorner(c.corner), RenderExceptSame(c.exceptSame), RenderEntries(c.entries);
    DropFirst(Kw(CORNERSPACING), rk + (rx + (re + [Semi])), rest);
    AppendAssoc(re, [Semi], rest);
    AppendAssoc(rx, re + [Semi], rest);
    AppendAssoc(rk, rx + (re + [Semi]), rest);
  }

  /** What follows the corner of a well-formed clause starts a group the corner cannot consume. */
  lemma AfterCornerFollows(x: ExceptSame, es: seq<Entry>, rest: seq<Token>)
    requires |es| > 0
    ensures StartsWith(RenderEntries(es) + rest, Kw(WIDTH))
    ensures CornerFollow(RenderExceptSame(x) + (RenderEntries(es) + rest))
  {
    assert (RenderEntries(es) + rest)[0] == Kw(WIDTH);
    if x == NoExceptSame {
      assert RenderExceptSame(x) + (RenderEntries(es) + rest) == RenderEntries(es) + rest;
    }
  }

  /** Completeness: the tokens of a well-formed clause, whatever follows them,
      parse to exactly the rule the clause builds and stop after the ";". */
  lemma ClauseRendered(c: Clause, rest: seq<Token>, d: Dbdist)
    requires WellFormed(c)
    ensures ParseCornerSpacing(Render(c) + rest, NewRule(), d) == Step(true, Build(c, d), rest)
  {
    var semiRest := [Semi] + rest;
    var entriesRest := RenderEntries(c.entries) + semiRest;
    var sameRest := RenderExceptSame(c.exceptSame) + entriesRest;
    RenderedClauseTokens(c, rest);
    AfterCornerFollows(c.exceptSame, c.entries, semiRest);
    var k := BuildCorner(c.corner, NewRule(), d);
    CornerRendered(c.corner, sameRest, NewRule(), d);
    ExceptSameRendered(c.exceptSame, entriesRest, k);
    SpacingsRendered(c.entries, semiRest, BuildExceptSame(c.exceptSame, k), d);
    assert semiRest[1..] == rest;
  }

  // ------------------------------------------------------------ soundness

  lemma SameMaskParsed(ts: seq<Token>, r: Rule) returns (b: bool)
    ensures var o := Optional(ParseSameMask(ts, r), ts);
            ts == RenderFlag(b, SAMEMASK) + o.rest && o.rule == BuildSameMask(b, r)
  {
    b := StartsWith(ts, Kw(SAMEMASK));
    if b {
      Split1(ts);
    }
  }

  lemma ModeParsed(ts: seq<Token>, r: Rule, d: Dbdist) returns (m: CornerMode)
    ensures var o := Optional(ParseCornerMode(ts, r, d), ts);
            ts == RenderMode(m) + o.rest && o.rule == BuildMode(m, r, d)
  {
    if StartsWith(ts, Kw(CORNERONLY)) && StartsWithNum(ts[1..]) {
      m := CornerOnly(ts[1].value);
      Split2(ts);
    } else if StartsWith(ts, Kw(CORNERTOCORNER)) {
      m := CornerToCorner;
      Split1(ts);
    } else {
      m := NoCornerMode;
    }
  }

  lemma EdgeParsed(ts: seq<Token>, r: Rule, d: Dbdist) returns (v: Option<real>)
    ensures var o := Optional(ParseEdgeLength(ts, r, d), ts);
            ts == RenderEdge(v) + o.rest && o.rule == BuildEdge(v, r, d)
  {
    if StartsWith(ts, Kw(EDGELENGTH)) && StartsWithNum(ts[1..]) {
      v := Some(ts[1].value);
      Split2(ts);
    } else {
      v := None;
    }
  }

  lemma IncludeShapeParsed(ts: seq<Token>, r: Rule) returns (b: bool)
    ensures var o := Optional(ParseIncludeShape(ts, r), ts);
            ts == RenderFlag(b, INCLUDELSHAPE) + o.rest && o.rule == BuildIncludeShape(b, r)
  {
    b := StartsWith(ts, Kw(INCLUDELSHAPE));
    if b {
      Split1(ts);
    }
  }

  lemma JogParsed(ts: seq<Token>, r: Rule, d: Dbdist) returns (j: Option<JogExcept>)
    ensures var o := Optional(ParseExceptJogLength(ts, r, d), ts);
            ts == RenderJog(j) + o.rest && o.rule == BuildJog(j, r, d)
  {
    if StartsWith(ts, Kw(EXCEPTJOGLENGTH)) && StartsWithNum(ts[1..]) {
      var jog := SetJogLength(r, ts[1].value, d);
      var edge := Optional(ParseEdgeLength(ts[2..], jog, d), ts[2..]);
      var v := EdgeParsed(ts[2..], jog, d);
      var shape := Optional(ParseIncludeShape(edge.rest, edge.rule), edge.rest);
      var b := IncludeShapeParsed(edge.rest, edge.rule);
      j := Some(JogExcept(ts[1].value, v, b));
      assert ts[2..] == (RenderEdge(v) + RenderFlag(b, INCLUDELSHAPE)) + shape.rest by {
        AppendAssoc(RenderEdge(v), RenderFlag(b, INCLUDELSHAPE), shape.rest);
      }
      Glue2(ts, RenderEdge(v) + RenderFlag(b, INCLUDELSHAPE), shape.rest);
    } else {
      j := None;
    }
  }

  lemma EolParsed(ts: seq<Token>, r: Rule, d: Dbdist) returns (e: Option<EolExcept>)
    ensures var o := Optional(ParseExceptEol(ts, r, d), ts);
            ts == RenderEol(e) + o.rest && o.rule == BuildEol(e, r, d)
  {
    if StartsWith(ts, Kw(EXCEPTEOL)) && StartsWithNum(ts[1..]) {
      var eol := SetEolWidth(r, ts[1].value, d);
      var jog := Optional(ParseExceptJogLength(ts[2..], eol, d), ts[2..]);
      var j := JogParsed(ts[2..], eol, d);
      e := Some(EolExcept(ts[1].value, j));
      Glue2(ts, RenderJog(j), jog.rest);
    } else {
      e := None;
    }
  }

  lemma NotchParsed(ts: seq<Token>, r: Rule, d: Dbdist) returns (n: Option<NotchExcept>)
    ensures var o := Optional(ParseExceptNotch(ts, r, d), ts);
            ts == RenderNotch(n) + o.rest && o.rule == BuildNotch(n, r, d)
  {
    if StartsWith(ts, Kw(EXCEPTNOTCH)) {
      if StartsWithNum(ts[1..]) {
        n := Some(NotchExcept(Some(ts[1].value)));
        Split2(ts);
      } else {
        n := Some(NotchExcept(None));
        Split1(ts);
      }
    } else {
      n := None;
    }
  }

  lemma MinLengthParsed(ts: seq<Token>, r: Rule, d: Dbdist) returns (b: Option<MinLengthBlock>)
    ensures var o := Optional(ParseMinLength(ts, r, d), ts);
            ts == RenderMinLength(b) + o.rest && o.rule == BuildMinLength(b, r, d)
  {
    if StartsWith(ts, Kw(MINLENGTH)) && StartsWithNum(ts[1..]) {
      var min := SetMinLength(r, ts[1].value, d);
      var notch := Optional(ParseExceptNotch(ts[2..], min, d), ts[2..]);
      var n := NotchParsed(ts[2..], min, d);
      b := Some(MinLengthBlock(ts[1].value, n));
      Glue2(ts, RenderNotch(n), notch.rest);
    } else {
      b := None;
    }
  }

  lemma ConvexModifiersParsed(ts: seq<Token>, r: Rule, d: Dbdist) returns (b: bool, m: CornerMode, e: Option<EolExcept>)
    ensures var s := ParseConvexModifiers(ts, r, d);
            ts == RenderFlag(b, SAMEMASK) + (RenderMode(m) + (RenderEol(e) + s.rest))
            && s.rule == BuildEol(e, BuildMode(m, BuildSameMask(b, r), d), d)
  {
    var mask := Optional(ParseSameMask(ts, r), ts);
    b := SameMaskParsed(ts, r);
    var mode := Optional(ParseCornerMode(mask.rest, mask.rule, d), mask.rest);
    m := ModeParsed(mask.rest, mask.rule, d);
    e := EolParsed(mode.rest, mode.rule, d);
  }

  lemma ConvexParsed(ts: seq<Token>, r: Rule, d: Dbdist) returns (k: Corner)
    requires StartsWith(ts, Kw(CONVEXCORNER))
    ensures ts == RenderCorner(k) + ParseConvexCorner(ts, r, d).rest
    ensures ParseConvexCorner(ts, r, d).rule == BuildCorner(k, r, d)
  {
    var typed := SetType(r, CornerType.ConvexCorner);
    var s := ParseConvexModifiers(ts[1..], typed, d);
    var b, m, e := ConvexModifiersParsed(ts[1..], typed, d);
    k := Convex(b, m, e);
    var f, mo, eo, t := RenderFlag(b, SAMEMASK), RenderMode(m), RenderEol(e), s.rest;
    assert ts[1..] == (f + (mo + eo)) + t by {
      AppendAssoc(mo, eo, t);
      AppendAssoc(f, mo + eo, t);
    }
    Glue1(ts, f + (mo + eo), t);
  }

  lemma ConcaveParsed(ts: seq<Token>, r: Rule, d: Dbdist) returns (k: Corner)
    requires StartsWith(ts, Kw(CONCAVECORNER))
    ensures ts == RenderCorner(k) + ParseConcaveCorner(ts, r, d).rest
    ensures ParseConcaveCorner(ts, r, d).rule == BuildCorner(k, r, d)
  {
    var typed := SetType(r, CornerType.ConcaveCorner);
    var min := Optional(ParseMinLength(ts[1..], typed, d), ts[1..]);
    var b := MinLengthParsed(ts[1..], typed, d);
    k := Concave(b);
    assert ParseConcaveCorner(ts, r, d) == Step(true, min.rule, min.rest);
    Glue1(ts, RenderMinLength(b), min.rest);
  }

  lemma CornerParsed(ts: seq<Token>, r: Rule, d: Dbdist) returns (k: Corner)
    requires ParseCorner(ts, r, d).matched
    ensures ts == RenderCorner(k) + ParseCorner(ts, r, d).rest
    ensures ParseCorner(ts, r, d).rule == BuildCorner(k, r, d)
  {
    if StartsWith(ts, Kw(CONVEXCORNER)) {
      k := ConvexParsed(ts, r, d);
    } else {
      k := ConcaveParsed(ts, r, d);
    }
  }

  lemma ExceptSameParsed(ts: seq<Token>, r: Rule) returns (x: ExceptSame)
    ensures var o := Optional(ParseExceptSame(ts, r), ts);
            ts == RenderExceptSame(x) + o.rest && o.rule == BuildExceptSame(x, r)
  {
    if StartsWith(ts, Kw(EXCEPTSAMENET)) {
      x := ExceptSameNet;
      Split1(ts);
    } else if StartsWith(ts, Kw(EXCEPTSAMEMETAL)) {
      x := ExceptSameMetal;
      Split1(ts);
    } else {
      x := NoExceptSame;
    }
  }

  lemma SpacingParsed(ts: seq<Token>, r: Rule, d: Dbdist) returns (e: Entry)
    requires ParseSpacing(ts, r, d).matched
    ensures ts == RenderEntry(e) + ParseSpacing(ts, r, d).rest
    ensures ParseSpacing(ts, r, d).rule == AddSpacing(r, e.width, e.spacing1, e.spacing2, d)
  {
    if StartsWithNum(ts[4..]) {
      e := Entry(ts[1].value, ts[3].value, Some(ts[4].value));
      assert ts == [ts[0], ts[1], ts[2], ts[3]] + ([ts[4]] + ts[5..]);
    } else {
      e := Entry(ts[1].value, ts[3].value, None);
      assert ts == [ts[0], ts[1], ts[2], ts[3]] + ts[4..];
    }
  }

  /** A table of one more entry, in front. */
  lemma EntriesCons(e: Entry, tail: seq<Entry>, rest: seq<Token>, r: Rule, d: Dbdist)
    ensures RenderEntries([e] + tail) + rest == RenderEntry(e) + (RenderEntries(tail) + rest)
    ensures BuildEntries([e] + tail, r, d) == BuildEntries(tail, AddSpacing(r, e.width, e.spacing1, e.spacing2, d), d)
  {
    assert ([e] + tail)[1..] == tail;
    AppendAssoc(RenderEntry(e), RenderEntries(tail), rest);
  }

  /** A table of a single entry. */
  lemma EntriesOne(e: Entry, r: Rule, d: Dbdist)
    ensures RenderEntries([e]) == RenderEntry(e)
    ensures BuildEntries([e], r, d) == AddSpacing(r, e.width, e.spacing1, e.spacing2, d)
  {
    assert [e][1..] == [];
  }

  lemma {:induction false} SpacingsParsed(ts: seq<Token>, r: Rule, d: Dbdist) returns (es: seq<Entry>)
    requires ParseSpacings(ts, r, d).matched
    ensures |es| > 0
    ensures ts == RenderEntries(es) + ParseSpacings(ts, r, d).rest
    ensures ParseSpacings(ts, r, d).rule == BuildEntries(es, r, d)
    decreases |ts|
  {
    var first := ParseSpacing(ts, r, d);
    var e := SpacingParsed(ts, r, d);
    var more := ParseSpacings(first.rest, first.rule, d);
    if more.matched {
      var tail := SpacingsParsed(first.rest, first.rule, d);
      es := [e] + tail;
      EntriesCons(e, tail, more.rest, r, d);
    } else {
      es := [e];
      EntriesOne(e, r, d);
    }
  }

  /** Reassembles the token sequence of a clause from its parts. */
  lemma ClauseTokens(ts: seq<Token>, c: Clause, rest: seq<Token>)
    requires StartsWith(ts, Kw(CORNERSPACING))
    requires ts[1..] == RenderCorner(c.corner) + (RenderExceptSame(c.exceptSame) + (RenderEntries(c.entries) + ([Semi] + rest)))
    ensures ts == Render(c) + rest
  {
    var rk, rx, re := RenderCorner(c.corner), RenderExceptSame(c.exceptSame), RenderEntries(c.entries);
    Split1(ts);
    assert re + ([Semi] + rest) == (re + [Semi]) + rest by { AppendAssoc(re, [Semi], rest); }
    assert rx + ((re + [Semi]) + rest) == (rx + (re + [Semi])) + rest by { AppendAssoc(rx, re + [Semi], rest); }
    assert rk + ((rx + (re + [Semi])) + rest) == (rk + (rx + (re + [Semi]))) + rest by {
      AppendAssoc(rk, rx + (re + [Semi]), rest);
    }
    assert [Kw(CORNERSPACING)] + ((rk + (rx + (re + [Semi]))) + rest)
        == ([Kw(CORNERSPACING)] + (rk + (rx + (re + [Semi])))) + rest by {
      AppendAssoc([Kw(CORNERSPACING)], rk + (rx + (re + [Semi])), rest);
    }
  }

  /** Soundness: whatever the whole grammar matches is the rendering of a
      well-formed clause, and the actions built exactly that clause's rule. */
  lemma ClauseParsed(ts: seq<Token>, d: Dbdist) returns (c: Clause)
    requires ParseCornerSpacing(ts, NewRule(), d).matched
    ensures WellFormed(c)
    ensures ts == Render(c) + ParseCornerSpacing(ts, NewRule(), d).rest
    ensures ParseCornerSpacing(ts, NewRule(), d).rule == Build(c, d)
  {
    var corner := ParseCorner(ts[1..], NewRule(), d);
    var k := CornerParsed(ts[1..], NewRule(), d);
    var same := Optional(ParseExceptSame(corner.rest, corner.rule), corner.rest);
    var x := ExceptSameParsed(corner.rest, corner.rule);
    var table := ParseSpacings(same.rest, same.rule, d);
    var es := SpacingsParsed(same.rest, same.rule, d);
    c := Clause(k, x, es);
    assert StartsWith(table.rest, Semi) by {
      assert StartsWith(ts, Kw(CORNERSPACING));
      assert corner.matched && table.matched;
    }
    var rest := table.rest[1..];
    assert ParseCornerSpacing(ts, NewRule(), d) == Step(true, table.rule, rest);
    assert table.rest == [Semi] + rest by { Split1(table.rest); }
    ClauseTokens(ts, c, rest);
  }
}

=== FILE: clause_table.dfy ===
/**
 * The spacing table and the except-same modifier of an accepted clause,
 * stated over the accepted tokens: the table has one row per WIDTH group, in
 * input order, the groups close the clause, and at most one except-same
 * keyword occurs, before the first WIDTH.
 */
module ClauseTable {
  import opened Wrappers
  import opened LefTokens
  import opened CornerSpacingRule
  import opened CornerSpacingParser
  import opened CornerSpacingClause
  import opened ClauseParsing
  import opened CornerSpacingProperties

  // ------------------------------------------------ the corner keeps the table

  // One lemma per setter or group: each checked on its own, the record
  // updates stay cheap for the solver, where the same facts asserted inline
  // in CornerKeepsTable and EolKeepsTable cost several times more solver resources.

  lemma JogKeepsTable(j: Option<JogExcept>, r: Rule, d: Dbdist)
    ensures BuildJog(j, r, d).spacings == r.spacings
  {
  }

  lemma SameMaskKeepsTable(b: bool, r: Rule)
    ensures BuildSameMask(b, SetType(r, CornerType.ConvexCorner)).spacings == r.spacings
  {
  }

  lemma WithinKeepsTable(r: Rule, w: real, d: Dbdist)
    ensures SetWithin(r, w, d).spacings == r.spacings
  {
  }

  lemma CornerToCornerKeepsTable(r: Rule)
    ensures SetCornerToCorner(r).spacings == r.spacings
  {
  }

  lemma MinLengthKeepsTable(b: Option<MinLengthBlock>, r: Rule, d: Dbdist)
    ensures BuildMinLength(b, r, d).spacings == r.spacings
  {
  }

  lemma EolKeepsTable(e: Option<EolExcept>, r: Rule, d: Dbdist)
    ensures BuildEol(e, r, d).spacings == r.spacings
  {
    if e.Some? {
      JogKeepsTable(e.value.jog, SetEolWidth(r, e.value.eolWidth, d), d);
    }
  }

  lemma ModeKeepsTable(m: CornerMode, r: Rule, d: Dbdist)
    ensures BuildMode(m, r, d).spacings == r.spacings
  {
    match m
    case NoCornerMode =>
    case CornerOnly(w) => WithinKeepsTable(r, w, d);
    case CornerToCorner => CornerToCornerKeepsTable(r);
  }

  lemma CornerKeepsTable(k: Corner, r: Rule, d: Dbdist)
    ensures BuildCorner(k, r, d).spacings == r.spacings
  {
    match k
    case Convex(b, m, e) =>
      SameMaskKeepsTable(b, r);
      ModeKeepsTable(m, BuildSameMask(b, SetType(r, CornerType.ConvexCorner)), d);
      EolKeepsTable(e, BuildMode(m, BuildSameMask(b, SetType(r, CornerType.ConvexCorner)), d), d);
    case Concave(block) =>
      MinLengthKeepsTable(block, SetType(r, CornerType.ConcaveCorner), d);
  }

  /** Appending rows leaves the table as the old one followed by the rows. */
  lemma EntriesTable(es: seq<Entry>, r: Rule, d: Dbdist)
    ensures BuildEntries(es, r, d).spacings == r.spacings + Table(es, d)
  {
    BuildEntriesAppendsTable(es, r, d);
  }

  lemma ExceptSameKeepsTable(x: ExceptSame, r: Rule)
    ensures BuildExceptSame(x, r).spacings == r.spacings
  {
    match x
    case NoExceptSame =>
    case ExceptSameNet => assert SetExceptSameNet(r).spacings == r.spacings;
    case ExceptSameMetal => assert SetExceptSameMetal(r).spacings == r.spacings;
  }

  /** The rule of a clause holds exactly the table of its entries. */
  lemma BuildTable(c: Clause, d: Dbdist)
    ensures Build(c, d).spacings == Table(c.entries, d)
  {
    var k := BuildCorner(c.corner, NewRule(), d);
    var x := BuildExceptSame(c.exceptSame, k);
    CornerKeepsTable(c.corner, NewRule(), d);
    ExceptSameKeepsTable(c.exceptSame, k);
    EntriesTable(c.entries, x, d);
    assert x.spacings + Table(c.entries, d) == Table(c.entries, d);
  }

  // ------------------------------------------------------ keyword counts

  lemma EntryWidthCount(e: Entry)
    ensures Count(RenderEntry(e), Kw(WIDTH)) == 1
  {
    var ts := RenderEntry(e);
    assert ts[1..] == [Num(e.width), Kw(SPACING), Num(e.spacing1)] + OptNum(e.spacing2);
    assert Kw(WIDTH) !in ts[1..];
  }

  lemma {:induction false} EntriesWidthCount(es: seq<Entry>)
    ensures Count(RenderEntries(es), Kw(WIDTH)) == |es|
  {
    if es != [] {
      EntriesWidthCount(es[1..]);
      EntryWidthCount(es[0]);
      CountAppend(RenderEntry(es[0]), RenderEntries(es[1..]), Kw(WIDTH));
    }
  }

  /** The corner part of a clause mentions neither WIDTH nor an except-same keyword. */
  lemma CornerMentionsNoTable(k: Corner, d: Dbdist)
    ensures Kw(WIDTH) !in [Kw(CORNERSPACING)] + RenderCorner(k)
    ensures Kw(EXCEPTSAMENET) !in [Kw(CORNERSPACING)] + RenderCorner(k)
    ensures Kw(EXCEPTSAMEMETAL) !in [Kw(CORNERSPACING)] + RenderCorner(k)
  {
    var head := [Kw(CORNERSPACING)] + RenderCorner(k);
    CornerMarks(k, d);
    CornerKeepsTable(k, NewRule(), d);
    BuildCornerConsistent(k, d);
    assert !Marked(Mentions(head), WIDTH);
    assert !Marked(Mentions(head), EXCEPTSAMENET);
    assert !Marked(Mentions(head), EXCEPTSAMEMETAL);
  }

  /** A clause's tokens split into the part before the table, the WIDTH groups and ";". */
  lemma ClauseSplit(c: Clause)
    ensures Render(c) == ([Kw(CORNERSPACING)] + RenderCorner(c.corner) + RenderExceptSame(c.exceptSame))
                         + (RenderEntries(c.entries) + [Semi])
  {
    var head := [Kw(CORNERSPACING)] + RenderCorner(c.corner);
    AppendAssoc([Kw(CORNERSPACING)], RenderCorner(c.corner), RenderExceptSame(c.exceptSame) + (RenderEntries(c.entries) + [Semi]));
    AppendAssoc(head, RenderExceptSame(c.exceptSame), RenderEntries(c.entries) + [Semi]);
  }

  /** Counting a keyword that only the except-same part may contain. */
  lemma CountBeforeTable(c: Clause, t: Token, d: Dbdist)
    requires t == Kw(EXCEPTSAMENET) || t == Kw(EXCEPTSAMEMETAL)
    ensures Count(Render(c), t) == Count(RenderExceptSame(c.exceptSame), t)
  {
    var head := [Kw(CORNERSPACING)] + RenderCorner(c.corner);
    var xs := RenderExceptSame(c.exceptSame);
    ClauseSplit(c);
    CornerMentionsNoTable(c.corner, d);
    EntriesMentions(c.entries);
    assert !Marked(Mentions(RenderEntries(c.entries)), t.keyword);
    assert t !in RenderEntries(c.entries) + [Semi];
    CountAppend(head + xs, RenderEntries(c.entries) + [Semi], t);
    CountAppend(head, xs, t);
  }

  lemma ClauseWidthCount(c: Clause, d: Dbdist)
    ensures Count(Render(c), Kw(WIDTH)) == |c.entries|
  {
    var head := [Kw(CORNERSPACING)] + RenderCorner(c.corner);
    var xs := RenderExceptSame(c.exceptSame);
    ClauseSplit(c);
    CornerMentionsNoTable(c.corner, d);
    assert Kw(WIDTH) !in xs;
    CountAppend(head + xs, RenderEntries(c.entries) + [Semi], Kw(WIDTH));
    CountAppend(head, xs, Kw(WIDTH));
    CountAppend(RenderEntries(c.entries), [Semi], Kw(WIDTH));
    EntriesWidthCount(c.entries);
  }

  // ------------------------------------------------------ accepted clauses

  /** The part of a clause before its table. */
  function Head(c: Clause): seq<Token>
  {
    [Kw(CORNERSPACING)] + RenderCorner(c.corner) + RenderExceptSame(c.exceptSame)
  }

  /** The clause-level facts behind ParsedTable. */
  lemma ClauseTableFacts(c: Clause, d: Dbdist)
    ensures Render(c) == Head(c) + (RenderEntries(c.entries) + [Semi]) && Kw(WIDTH) !in Head(c)
    ensures Build(c, d).spacings == Table(c.entries, d)
    ensures Count(Render(c), Kw(WIDTH)) == |c.entries|
  {
    BuildTable(c, d);
    ClauseWidthCount(c, d);
    ClauseSplit(c);
    CornerMentionsNoTable(c.corner, d);
  }

  /** The clause-level facts behind ExceptSameOnce. */
  lemma ClauseExceptSameFacts(c: Clause, d: Dbdist)
    ensures Render(c) == Head(c) + (RenderEntries(c.entries) + [Semi]) && Kw(WIDTH) !in Head(c)
    ensures Kw(EXCEPTSAMENET) !in RenderEntries(c.entries) && Kw(EXCEPTSAMEMETAL) !in RenderEntries(c.entries)
    ensures Count(Render(c), Kw(EXCEPTSAMENET)) + Count(Render(c), Kw(EXCEPTSAMEMETAL)) <= 1
  {
    ClauseSplit(c);
    CornerMentionsNoTable(c.corner, d);
    CountBeforeTable(c, Kw(EXCEPTSAMENET), d);
    CountBeforeTable(c, Kw(EXCEPTSAMEMETAL), d);
    EntriesMentions(c.entries);
    assert !Marked(Mentions(RenderEntries(c.entries)), EXCEPTSAMENET);
    assert !Marked(Mentions(RenderEntries(c.entries)), EXCEPTSAMEMETAL);
  }

  /** The table of an accepted clause: as many rows as WIDTH keywords, and
      exactly the rows of the WIDTH groups that close the clause, in input
      order (each row the converted width and spacings, the second spacing
      defaulting to the first). */
  lemma ParsedTable(ts: seq<Token>, d: Dbdist)
    requires Parse(ts, d).Some?
    ensures |Parse(ts, d).value.spacings| == Count(ts, Kw(WIDTH))
    ensures exists pre, es :: ts == pre + (RenderEntries(es) + [Semi]) && |es| > 0
              && Kw(WIDTH) !in pre && Parse(ts, d).value.spacings == Table(es, d)
  {
    var c := ClauseParsed(ts, d);
    ClauseTableFacts(c, d);
    assert ts == Head(c) + (RenderEntries(c.entries) + [Semi]);
  }

  /** Except-same exclusivity: an accepted clause holds at most one
      EXCEPTSAMENET or EXCEPTSAMEMETAL, and it comes before the first WIDTH:
      the clause is a WIDTH-free part, then one or more WIDTH groups that
      mention neither keyword, then ";". */
  lemma ExceptSameOnce(ts: seq<Token>, d: Dbdist)
    requires Parse(ts, d).Some?
    ensures Count(ts, Kw(EXCEPTSAMENET)) + Count(ts, Kw(EXCEPTSAMEMETAL)) <= 1
    ensures exists pre, es :: ts == pre + (RenderEntries(es) + [Semi]) && |es| > 0 && Kw(WIDTH) !in pre
              && Kw(EXCEPTSAMENET) !in RenderEntries(es) && Kw(EXCEPTSAMEMETAL) !in RenderEntries(es)
  {
    var c := ClauseParsed(ts, d);
    ClauseExceptSameFacts(c, d);
    assert ts == Head(c) + (RenderEntries(c.entries) + [Semi]);
  }
}

=== FILE: clause_values.dfy ===
/**
 * The measured values of a rule. Every numeric setter raises its flag and
 * stores the converted number in one step, so a rule's measures are one
 * optional value per valued keyword: CORNERONLY, EXCEPTEOL, EXCEPTJOGLENGTH,
 * EDGELENGTH, MINLENGTH and the optional length after EXCEPTNOTCH. An
 * accepted clause stores exactly the measures its text states, and each one
 * is the converted number written right after its keyword.
 */
module ClauseValues {
  import opened Wrappers
  import opened LefTokens
  import opened CornerSpacingRule
  import opened CornerSpacingParser
  import opened CornerSpacingClause
  import opened ClauseParsing
  import opened CornerSpacingProperties

  datatype Measures = Measures(
    within: Option<int>,
    eolWidth: Option<int>,
    jogLength: Option<int>,
    edgeLength: Option<int>,
    minLength: Option<int>,
    notchLength: Option<int>)

  function NoMeasures(): Measures
  {
    Measures(None, None, None, None, None, None)
  }

  /** Field by field, a value of `b` replaces the one of `a`. */
  function Over(a: Measures, b: Measures): Measures
  {
    Measures(
      if b.within.Some? then b.within else a.within,
      if b.eolWidth.Some? then b.eolWidth else a.eolWidth,
      if b.jogLength.Some? then b.jogLength else a.jogLength,
      if b.edgeLength.Some? then b.edgeLength else a.edgeLength,
      if b.minLength.Some? then b.minLength else a.minLength,
      if b.notchLength.Some? then b.notchLength else a.notchLength)
  }

  lemma OverAssoc(a: Measures, b: Measures, c: Measures)
    ensures Over(a, Over(b, c)) == Over(Over(a, b), c)
  {
  }

  /** A value counts only when its valid flag is set. */
  function RecordedMeasures(r: Rule): Measures
  {
    Measures(
      if r.cornerOnly then Some(r.within) else None,
      if r.exceptEol then Some(r.eolWidth) else None,
      if r.exceptJogLength then Some(r.jogLength) else None,
      if r.edgeLengthValid then Some(r.edgeLength) else None,
      if r.minLengthValid then Some(r.minLength) else None,
      if r.exceptNotchLengthValid then Some(r.exceptNotchLength) else None)
  }

  // ----------------------------------------------- what a clause states

  function Converted(v: Option<real>, d: Dbdist): Option<int>
  {
    if v.Some? then Some(d(v.value)) else None
  }

  function ModeStates(m: CornerMode, d: Dbdist): Measures
  {
    if m.CornerOnly? then NoMeasures().(within := Some(d(m.within))) else NoMeasures()
  }

  function JogStates(j: Option<JogExcept>, d: Dbdist): Measures
  {
    if j.None? then NoMeasures()
    else NoMeasures().(jogLength := Some(d(j.value.jogLength)), edgeLength := Converted(j.value.edgeLength, d))
  }

  function EolStates(e: Option<EolExcept>, d: Dbdist): Measures
  {
    if e.None? then NoMeasures()
    else Over(NoMeasures().(eolWidth := Some(d(e.value.eolWidth))), JogStates(e.value.jog, d))
  }

  function MinLengthStates(b: Option<MinLengthBlock>, d: Dbdist): Measures
  {
    if b.None? then NoMeasures()
    else
      var notch := if b.value.notch.Some? then Converted(b.value.notch.value.notchLength, d) else None;
      NoMeasures().(minLength := Some(d(b.value.minLength)), notchLength := notch)
  }

  /** The measures a corner part states; the rest of a clause states none. */
  function CornerStates(k: Corner, d: Dbdist): Measures
  {
    match k
    case Convex(_, m, e) => Over(ModeStates(m, d), EolStates(e, d))
    case Concave(b) => MinLengthStates(b, d)
  }

  // ------------------------------------------------ setters and groups

  lemma KeepsMeasures(r: Rule, r': Rule)
    requires r'.cornerOnly == r.cornerOnly && r'.within == r.within
    requires r'.exceptEol == r.exceptEol && r'.eolWidth == r.eolWidth
    requires r'.exceptJogLength == r.exceptJogLength && r'.jogLength == r.jogLength
    requires r'.edgeLengthValid == r.edgeLengthValid && r'.edgeLength == r.edgeLength
    requires r'.minLengthValid == r.minLengthValid && r'.minLength == r.minLength
    requires r'.exceptNotchLengthValid == r.exceptNotchLengthValid && r'.exceptNotchLength == r.exceptNotchLength
    ensures RecordedMeasures(r') == RecordedMeasures(r)
  {
  }

  lemma SameMaskMeasures(b: bool, t: CornerType, r: Rule)
    ensures RecordedMeasures(BuildSameMask(b, SetType(r, t))) == RecordedMeasures(r)
  {
    KeepsMeasures(r, BuildSameMask(b, SetType(r, t)));
  }

  lemma ModeMeasures(m: CornerMode, r: Rule, d: Dbdist)
    ensures RecordedMeasures(BuildMode(m, r, d)) == Over(RecordedMeasures(r), ModeStates(m, d))
  {
    match m
    case NoCornerMode =>
    case CornerOnly(w) =>
      var r' := SetWithin(r, w, d);
      assert r'.exceptEol == r.exceptEol && r'.minLengthValid == r.minLengthValid;
    case CornerToCorner =>
      KeepsMeasures(r, SetCornerToCorner(r));
  }

  lemma EdgeMeasures(v: Option<real>, r: Rule, d: Dbdist)
    ensures RecordedMeasures(BuildEdge(v, r, d)) == Over(RecordedMeasures(r), NoMeasures().(edgeLength := Converted(v, d)))
  {
    if v.Some? {
      var r' := SetEdgeLength(r, v.value, d);
      assert r'.cornerOnly == r.cornerOnly && r'.minLengthValid == r.minLengthValid;
    }
  }

  lemma IncludeShapeMeasures(b: bool, r: Rule)
    ensures RecordedMeasures(BuildIncludeShape(b, r)) == RecordedMeasures(r)
  {
    KeepsMeasures(r, BuildIncludeShape(b, r));
  }

  lemma JogLengthMeasures(r: Rule, v: real, d: Dbdist)
    ensures RecordedMeasures(SetJogLength(r, v, d)) == RecordedMeasures(r).(jogLength := Some(d(v)))
  {
    var r' := SetJogLength(r, v, d);
    assert r'.cornerOnly == r.cornerOnly && r'.minLengthValid == r.minLengthValid;
  }

  lemma JogMeasures(j: Option<JogExcept>, r: Rule, d: Dbdist)
    ensures RecordedMeasures(BuildJog(j, r, d)) == Over(RecordedMeasures(r), JogStates(j, d))
  {
    if j.Some? {
      var jog := SetJogLength(r, j.value.jogLength, d);
      JogLengthMeasures(r, j.value.jogLength, d);
      EdgeMeasures(j.value.edgeLength, jog, d);
      IncludeShapeMeasures(j.value.includeShape, BuildEdge(j.value.edgeLength, jog, d));
    }
  }

  lemma EolWidthMeasures(r: Rule, v: real, d: Dbdist)
    ensures RecordedMeasures(SetEolWidth(r, v, d)) == Over(RecordedMeasures(r), NoMeasures().(eolWidth := Some(d(v))))
  {
    var r' := SetEolWidth(r, v, d);
    assert r'.cornerOnly == r.cornerOnly && r'.minLengthValid == r.minLengthValid;
  }

  lemma EolMeasures(e: Option<EolExcept>, r: Rule, d: Dbdist)
    ensures RecordedMeasures(BuildEol(e, r, d)) == Over(RecordedMeasures(r), EolStates(e, d))
  {
    if e.Some? {
      var head := NoMeasures().(eolWidth := Some(d(e.value.eolWidth)));
      EolWidthMeasures(r, e.value.eolWidth, d);
      JogMeasures(e.value.jog, SetEolWidth(r, e.value.eolWidth, d), d);
      OverAssoc(RecordedMeasures(r), head, JogStates(e.value.jog, d));
    }
  }

  lemma NotchLengthMeasures(r: Rule, v: real, d: Dbdist)
    ensures RecordedMeasures(SetExceptNotchLength(r, v, d)) == RecordedMeasures(r).(notchLength := Some(d(v)))
  {
    var r' := SetExceptNotchLength(r, v, d);
    assert r'.cornerOnly == r.cornerOnly && r'.minLengthValid == r.minLengthValid;
  }

  lemma NotchMeasures(n: Option<NotchExcept>, r: Rule, d: Dbdist)
    ensures var notch := if n.Some? then Converted(n.value.notchLength, d) else None;
      RecordedMeasures(BuildNotch(n, r, d)) == Over(RecordedMeasures(r), NoMeasures().(notchLength := notch))
  {
    if n.Some? {
      KeepsMeasures(r, SetExceptNotch(r));
      if n.value.notchLength.Some? {
        NotchLengthMeasures(SetExceptNotch(r), n.value.notchLength.value, d);
      }
    }
  }

  lemma MinLengthMeasures(b: Option<MinLengthBlock>, r: Rule, d: Dbdist)
    ensures RecordedMeasures(BuildMinLength(b, r, d)) == Over(RecordedMeasures(r), MinLengthStates(b, d))
  {
    if b.Some? {
      var r' := SetMinLength(r, b.value.minLength, d);
      assert r'.cornerOnly == r.cornerOnly && r'.exceptNotchLengthValid == r.exceptNotchLengthValid;
      NotchMeasures(b.value.notch, r', d);
    }
  }

  lemma CornerMeasures(k: Corner, d: Dbdist)
    ensures RecordedMeasures(BuildCorner(k, NewRule(), d)) == CornerStates(k, d)
  {
    match k
    case Convex(b, m, e) =>
      SameMaskMeasures(b, CornerType.ConvexCorner, NewRule());
      var masked := BuildSameMask(b, SetType(NewRule(), CornerType.ConvexCorner));
      ModeMeasures(m, masked, d);
      EolMeasures(e, BuildMode(m, masked, d), d);
      OverAssoc(NoMeasures(), ModeStates(m, d), EolStates(e, d));
    case Concave(block) =>
      KeepsMeasures(NewRule(), SetType(NewRule(), CornerType.ConcaveCorner));
      MinLengthMeasures(block, SetType(NewRule(), CornerType.ConcaveCorner), d);
  }

  lemma ExceptSameMeasures(x: ExceptSame, r: Rule)
    ensures RecordedMeasures(BuildExceptSame(x, r)) == RecordedMeasures(r)
  {
    match x
    case NoExceptSame =>
    case ExceptSameNet => KeepsMeasures(r, SetExceptSameNet(r));
    case ExceptSameMetal => KeepsMeasures(r, SetExceptSameMetal(r));
  }

  lemma EntriesMeasures(es: seq<Entry>, r: Rule, d: Dbdist)
    ensures RecordedMeasures(BuildEntries(es, r, d)) == RecordedMeasures(r)
  {
    BuildEntriesAppendsTable(es, r, d);
    KeepsMeasures(r, r.(spacings := r.spacings + Table(es, d)));
  }

  /** The rule of a clause records exactly the measures its corner part states. */
  lemma BuildMeasures(c: Clause, d: Dbdist)
    ensures RecordedMeasures(Build(c, d)) == CornerStates(c.corner, d)
  {
    var k := BuildCorner(c.corner, NewRule(), d);
    CornerMeasures(c.corner, d);
    ExceptSameMeasures(c.exceptSame, k);
    EntriesMeasures(c.entries, BuildExceptSame(c.exceptSame, k), d);
  }

  // ------------------------------------------- values follow their keywords

  /** Some occurrence of keyword `k` is followed by a number that converts to `x`. */
  predicate Follows(ts: seq<Token>, k: Keyword, x: int, d: Dbdist)
  {
    exists i :: 0 <= i && i + 1 < |ts| && ts[i] == Kw(k) && ts[i + 1].Num? && d(ts[i + 1].value) == x
  }

  /** A present value `o` is the converted number after keyword `k` in `ts`. */
  predicate FieldStated(ts: seq<Token>, k: Keyword, o: Option<int>, d: Dbdist)
  {
    o.Some? ==> Follows(ts, k, o.value, d)
  }

  /** Every measure in `m` is the converted number after its keyword in `ts`. */
  predicate StatedBy(ts: seq<Token>, m: Measures, d: Dbdist)
  {
    && FieldStated(ts, CORNERONLY, m.within, d)
    && FieldStated(ts, EXCEPTEOL, m.eolWidth, d)
    && FieldStated(ts, EXCEPTJOGLENGTH, m.jogLength, d)
    && FieldStated(ts, EDGELENGTH, m.edgeLength, d)
    && FieldStated(ts, MINLENGTH, m.minLength, d)
    && FieldStated(ts, EXCEPTNOTCH, m.notchLength, d)
  }

  lemma FollowsPair(k: Keyword, v: real, rest: seq<Token>, d: Dbdist)
    ensures Follows([Kw(k), Num(v)] + rest, k, d(v), d)
  {
    var ts := [Kw(k), Num(v)] + rest;
    assert ts[0] == Kw(k) && ts[1] == Num(v);
  }

  lemma FollowsAfter(a: seq<Token>, b: seq<Token>, k: Keyword, x: int, d: Dbdist)
    requires Follows(b, k, x, d)
    ensures Follows(a + b, k, x, d)
  {
    var i :| 0 <= i && i + 1 < |b| && b[i] == Kw(k) && b[i + 1].Num? && d(b[i + 1].value) == x;
    assert (a + b)[|a| + i] == b[i] && (a + b)[|a| + i + 1] == b[i + 1];
  }

  lemma FollowsBefore(a: seq<Token>, b: seq<Token>, k: Keyword, x: int, d: Dbdist)
    requires Follows(a, k, x, d)
    ensures Follows(a + b, k, x, d)
  {
    var i :| 0 <= i && i + 1 < |a| && a[i] == Kw(k) && a[i + 1].Num? && d(a[i + 1].value) == x;
    assert (a + b)[i] == a[i] && (a + b)[i + 1] == a[i + 1];
  }

  /** One field of StatedAppend: the later group's value wins, else the earlier one's. */
  lemma FieldAppend(a: seq<Token>, b: seq<Token>, k: Keyword, oa: Option<int>, ob: Option<int>, d: Dbdist)
    requires FieldStated(a, k, oa, d) && FieldStated(b, k, ob, d)
    ensures FieldStated(a + b, k, if ob.Some? then ob else oa, d)
  {
    if ob.Some? {
      FollowsAfter(a, b, k, ob.value, d);
    } else if oa.Some? {
      FollowsBefore(a, b, k, oa.value, d);
    }
  }

  lemma StatedAppend(a: seq<Token>, b: seq<Token>, ma: Measures, mb: Measures, d: Dbdist)
    requires StatedBy(a, ma, d) && StatedBy(b, mb, d)
    ensures StatedBy(a + b, Over(ma, mb), d)
  {
    FieldAppend(a, b, CORNERONLY, ma.within, mb.within, d);
    FieldAppend(a, b, EXCEPTEOL, ma.eolWidth, mb.eolWidth, d);
    FieldAppend(a, b, EXCEPTJOGLENGTH, ma.jogLength, mb.jogLength, d);
    FieldAppend(a, b, EDGELENGTH, ma.edgeLength, mb.edgeLength, d);
    FieldAppend(a, b, MINLENGTH, ma.minLength, mb.minLength, d);
    FieldAppend(a, b, EXCEPTNOTCH, ma.notchLength, mb.notchLength, d);
  }

  /** Tokens in front do not disturb what a group states. */
  lemma StatedAfter(a: seq<Token>, b: seq<Token>, m: Measures, d: Dbdist)
    requires StatedBy(b, m, d)
    ensures StatedBy(a + b, m, d)
  {
    StatedAppend(a, b, NoMeasures(), m, d);
    assert Over(NoMeasures(), m) == m;
  }

  /** Tokens behind do not disturb what a group states. */
  lemma StatedBefore(a: seq<Token>, b: seq<Token>, m: Measures, d: Dbdist)
    requires StatedBy(a, m, d)
    ensures StatedBy(a + b, m, d)
  {
    StatedAppend(a, b, m, NoMeasures(), d);
    assert Over(m, NoMeasures()) == m;
  }

  lemma ModeStated(m: CornerMode, d: Dbdist)
    ensures StatedBy(RenderMode(m), ModeStates(m, d), d)
  {
    if m.CornerOnly? {
      FollowsPair(CORNERONLY, m.within, [], d);
      assert [Kw(CORNERONLY), Num(m.within)] + [] == RenderMode(m);
    }
  }

  lemma EdgeStated(v: Option<real>, flag: seq<Token>, d: Dbdist)
    ensures StatedBy(RenderEdge(v) + flag, NoMeasures().(edgeLength := Converted(v, d)), d)
  {
    if v.Some? {
      FollowsPair(EDGELENGTH, v.value, flag, d);
    }
  }

  lemma JogStated(j: Option<JogExcept>, d: Dbdist)
    ensures StatedBy(RenderJog(j), JogStates(j, d), d)
  {
    if j.Some? {
      var tail := RenderEdge(j.value.edgeLength) + RenderFlag(j.value.includeShape, INCLUDELSHAPE);
      FollowsPair(EXCEPTJOGLENGTH, j.value.jogLength, tail, d);
      EdgeStated(j.value.edgeLength, RenderFlag(j.value.includeShape, INCLUDELSHAPE), d);
      StatedAfter([Kw(EXCEPTJOGLENGTH), Num(j.value.jogLength)], tail, NoMeasures().(edgeLength := Converted(j.value.edgeLength, d)), d);
    }
  }

  lemma EolStated(e: Option<EolExcept>, d: Dbdist)
    ensures StatedBy(RenderEol(e), EolStates(e, d), d)
  {
    if e.Some? {
      var head := [Kw(EXCEPTEOL), Num(e.value.eolWidth)];
      FollowsPair(EXCEPTEOL, e.value.eolWidth, [], d);
      assert head + [] == head;
      JogStated(e.value.jog, d);
      StatedAppend(head, RenderJog(e.value.jog), NoMeasures().(eolWidth := Some(d(e.value.eolWidth))), JogStates(e.value.jog, d), d);
    }
  }

  lemma NotchStated(n: Option<NotchExcept>, d: Dbdist)
    ensures var notch := if n.Some? then Converted(n.value.notchLength, d) else None;
      StatedBy(RenderNotch(n), NoMeasures().(notchLength := notch), d)
  {
    if n.Some? && n.value.notchLength.Some? {
      FollowsPair(EXCEPTNOTCH, n.value.notchLength.value, [], d);
      assert [Kw(EXCEPTNOTCH), Num(n.value.notchLength.value)] + [] == RenderNotch(n);
    }
  }

  lemma MinLengthStated(b: Option<MinLengthBlock>, d: Dbdist)
    ensures StatedBy(RenderMinLength(b), MinLengthStates(b, d), d)
  {
    if b.Some? {
      var notch := if b.value.notch.Some? then Converted(b.value.notch.value.notchLength, d) else None;
      FollowsPair(MINLENGTH, b.value.minLength, RenderNotch(b.value.notch), d);
      NotchStated(b.value.notch, d);
      StatedAfter([Kw(MINLENGTH), Num(b.value.minLength)], RenderNotch(b.value.notch), NoMeasures().(notchLength := notch), d);
    }
  }

  lemma CornerStated(k: Corner, d: Dbdist)
    ensures StatedBy(RenderCorner(k), CornerStates(k, d), d)
  {
    match k
    case Convex(b, m, e) =>
      ModeStated(m, d);
      EolStated(e, d);
      StatedAppend(RenderMode(m), RenderEol(e), ModeStates(m, d), EolStates(e, d), d);
      StatedAfter([Kw(CONVEXCORNER)] + RenderFlag(b, SAMEMASK), RenderMode(m) + RenderEol(e), CornerStates(k, d), d);
      AppendAssoc([Kw(CONVEXCORNER)], RenderFlag(b, SAMEMASK), RenderMode(m) + RenderEol(e));
    case Concave(block) =>
      MinLengthStated(block, d);
      StatedAfter([Kw(CONCAVECORNER)], RenderMinLength(block), CornerStates(k, d), d);
  }

  /** Every measure a clause states is written after its keyword in the clause. */
  lemma ClauseStated(c: Clause, d: Dbdist)
    ensures StatedBy(Render(c), CornerStates(c.corner, d), d)
  {
    var rest := RenderExceptSame(c.exceptSame) + (RenderEntries(c.entries) + [Semi]);
    CornerStated(c.corner, d);
    StatedBefore(RenderCorner(c.corner), rest, CornerStates(c.corner, d), d);
    StatedAfter([Kw(CORNERSPACING)], RenderCorner(c.corner) + rest, CornerStates(c.corner, d), d);
  }

  // ------------------------------------------------------ accepted clauses

  /**
   * Each valid flag of an accepted rule is set together with its value, and
   * that value is the converted number right after the flag's keyword.
   */
  lemma MeasuresFollowKeywords(ts: seq<Token>, d: Dbdist)
    requires Parse(ts, d).Some?
    ensures StatedBy(ts, RecordedMeasures(Parse(ts, d).value), d)
  {
    var c := ClauseParsed(ts, d);
    assert ts == Render(c) && Parse(ts, d).value == Build(c, d);
    BuildMeasures(c, d);
    ClauseStated(c, d);
  }

  /** A measured keyword's value is present exactly when the keyword occurs. */
  lemma MeasuredIffKeyword(ts: seq<Token>, d: Dbdist)
    requires Parse(ts, d).Some?
    ensures var m := RecordedMeasures(Parse(ts, d).value);
      && (m.within.Some? <==> Kw(CORNERONLY) in ts)
      && (m.eolWidth.Some? <==> Kw(EXCEPTEOL) in ts)
      && (m.jogLength.Some? <==> Kw(EXCEPTJOGLENGTH) in ts)
      && (m.edgeLength.Some? <==> Kw(EDGELENGTH) in ts)
      && (m.minLength.Some? <==> Kw(MINLENGTH) in ts)
      && (m.notchLength.Some? ==> Kw(EXCEPTNOTCH) in ts)
  {
    KeywordsRecorded(ts, d);
    ParsedRuleConsistent(ts, d);
  }
}

=== FILE: corner_spacing_clause.dfy ===
/**
 * The abstract syntax of one CORNERSPACING clause, independent of the parser:
 * `Render` writes a clause out as the token sequence the grammar describes,
 * and `Build` applies the semantic actions for each part of the tree, in
 * grammar order, to a freshly created rule.
 */
module CornerSpacingClause {
  import opened Wrappers
  import opened LefTokens
  import opened CornerSpacingRule

  datatype CornerMode = NoCornerMode | CornerOnly(within: real) | CornerToCorner

  /** EXCEPTJOGLENGTH jogLength [EDGELENGTH edgeLength] [INCLUDELSHAPE] */
  datatype JogExcept = JogExcept(jogLength: real, edgeLength: Option<real>, includeShape: bool)

  /** EXCEPTEOL eolWidth [jog] */
  datatype EolExcept = EolExcept(eolWidth: real, jog: Option<JogExcept>)

  /** EXCEPTNOTCH [notchLength] */
  datatype NotchExcept = NotchExcept(notchLength: Option<real>)

  /** MINLENGTH minLength [notch] */
  datatype MinLengthBlock = MinLengthBlock(minLength: real, notch: Option<NotchExcept>)

  datatype Corner =
    | Convex(sameMask: bool, mode: CornerMode, eol: Option<EolExcept>)
    | Concave(minLengthBlock: Option<MinLengthBlock>)

  datatype ExceptSame = NoExceptSame | ExceptSameNet | ExceptSameMetal

  /** WIDTH width SPACING spacing1 [spacing2] */
  datatype Entry = Entry(width: real, spacing1: real, spacing2: Option<real>)

  datatype Clause = Clause(corner: Corner, exceptSame: ExceptSame, entries: seq<Entry>)

  /** The grammar requires at least one WIDTH ... SPACING ... group. */
  predicate WellFormed(c: Clause)
  {
    |c.entries| > 0
  }

  // ---------------------------------------------------------------- Render

  function OptNum(v: Option<real>): seq<Token>
  {
    if v.Some? then [Num(v.value)] else []
  }

  /** A keyword that stands for a boolean flag: present exactly when the flag is set. */
  function RenderFlag(b: bool, k: Keyword): seq<Token>
  {
    if b then [Kw(k)] else []
  }

  function RenderMode(m: CornerMode): seq<Token>
  {
    match m
    case NoCornerMode => []
    case CornerOnly(w) => [Kw(CORNERONLY), Num(w)]
    case CornerToCorner => [Kw(CORNERTOCORNER)]
  }

  function RenderEdge(v: Option<real>): seq<Token>
  {
    if v.Some? then [Kw(EDGELENGTH), Num(v.value)] else []
  }

  function RenderJog(j: Option<JogExcept>): seq<Token>
  {
    if j.None? then []
    else
      [Kw(EXCEPTJOGLENGTH), Num(j.value.jogLength)]
      + (RenderEdge(j.value.edgeLength) + RenderFlag(j.value.includeShape, INCLUDELSHAPE))
  }

  function RenderEol(e: Option<EolExcept>): seq<Token>
  {
    if e.None? then [] else [Kw(EXCEPTEOL), Num(e.value.eolWidth)] + RenderJog(e.value.jog)
  }

  function RenderNotch(n: Option<NotchExcept>): seq<Token>
  {
    if n.None? then [] else [Kw(EXCEPTNOTCH)] + OptNum(n.value.notchLength)
  }

  function RenderMinLength(b: Option<MinLengthBlock>): seq<Token>
  {
    if b.None? then [] else [Kw(MINLENGTH), Num(b.value.minLength)] + RenderNotch(b.value.notch)
  }

  function RenderCorner(k: Corner): seq<Token>
  {
    match k
    case Convex(sameMask, mode, eol) =>
      [Kw(CONVEXCORNER)] + (RenderFlag(sameMask, SAMEMASK) + (RenderMode(mode) + RenderEol(eol)))
    case Concave(block) =>
      [Kw(CONCAVECORNER)] + RenderMinLength(block)
  }

  function RenderExceptSame(x: ExceptSame): seq<Token>
  {
    match x
    case NoExceptSame => []
    case ExceptSameNet => [Kw(EXCEPTSAMENET)]
    case ExceptSameMetal => [Kw(EXCEPTSAMEMETAL)]
  }

  function RenderEntry(e: Entry): seq<Token>
  {
    [Kw(WIDTH), Num(e.width), Kw(SPACING), Num(e.spacing1)] + OptNum(e.spacing2)
  }

  function RenderEntries(es: seq<Entry>): seq<Token>
  {
    if es == [] then [] else RenderEntry(es[0]) + RenderEntries(es[1..])
  }

  /** The token sequence of a whole clause, terminator included. */
  function Render(c: Clause): seq<Token>
  {
    [Kw(CORNERSPACING)]
    + (RenderCorner(c.corner) + (RenderExceptSame(c.exceptSame) + (RenderEntries(c.entries) + [Semi])))
  }

  // ----------------------------------------------------------------- Build

  function BuildSameMask(b: bool, r: Rule): Rule
  {
    if b then SetSameMask(r) else r
  }

  function BuildMode(m: CornerMode, r: Rule, d: Dbdist): Rule
  {
    match m
    case NoCornerMode => r
    case CornerOnly(w) => SetWithin(r, w, d)
    case CornerToCorner => SetCornerToCorner(r)
  }

  function BuildEdge(v: Option<real>, r: Rule, d: Dbdist): Rule
  {
    if v.Some? then SetEdgeLength(r, v.value, d) else r
  }

  function BuildIncludeShape(b: bool, r: Rule): Rule
  {
    if b then SetIncludeShape(r) else r
  }

  function BuildJog(j: Option<JogExcept>, r: Rule, d: Dbdist): Rule
  {
    if j.None? then r
    else
      var jog := SetJogLength(r, j.value.jogLength, d);
      BuildIncludeShape(j.value.includeShape, BuildEdge(j.value.edgeLength, jog, d))
  }

  function BuildEol(e: Option<EolExcept>, r: Rule, d: Dbdist): Rule
  {
    if e.None? then r else BuildJog(e.value.jog, SetEolWidth(r, e.value.eolWidth, d), d)
  }

  function BuildNotch(n: Option<NotchExcept>, r: Rule, d: Dbdist): Rule
  {
    if n.None? then r
    else
      var notch := SetExceptNotch(r);
      if n.value.notchLength.Some? then SetExceptNotchLength(notch, n.value.notchLength.value, d) else notch
  }

  function BuildMinLength(b: Option<MinLengthBlock>, r: Rule, d: Dbdist): Rule
  {
    if b.None? then r else BuildNotch(b.value.notch, SetMinLength(r, b.value.minLength, d), d)
  }

  function BuildCorner(k: Corner, r: Rule, d: Dbdist): Rule
  {
    match k
    case Convex(sameMask, mode, eol) =>
      var typed := SetType(r, CornerType.ConvexCorner);
      BuildEol(eol, BuildMode(mode, BuildSameMask(sameMask, typed), d), d)
    case Concave(block) =>
      BuildMinLength(block, SetType(r, CornerType.ConcaveCorner), d)
  }

  function BuildExceptSame(x: ExceptSame, r: Rule): Rule
  {
    match x
    case NoExceptSame => r
    case ExceptSameNet => SetExceptSameNet(r)
    case ExceptSameMetal => SetExceptSameMetal(r)
  }

  function BuildEntries(es: seq<Entry>, r: Rule, d: Dbdist): Rule
  {
    if es == [] then r else BuildEntries(es[1..], AddSpacing(r, es[0].width, es[0].spacing1, es[0].spacing2, d), d)
  }

  /** The rule a clause denotes: its actions applied in grammar order to a fresh rule. */
  function Build(c: Clause, d: Dbdist): Rule
  {
    BuildEntries(c.entries, BuildExceptSame(c.exceptSame, BuildCorner(c.corner, NewRule(), d)), d)
  }

  // ------------------------------------------------------- Spacing table

  /** The table row one entry denotes: an omitted second spacing repeats the first. */
  function Row(e: Entry, d: Dbdist): SpacingEntry
  {
    SpacingEntry(d(e.width), d(e.spacing1), if e.spacing2.Some? then d(e.spacing2.value) else d(e.spacing1))
  }

  /** The spacing table a list of entries denotes, one row per entry, in order. */
  function Table(es: seq<Entry>, d: Dbdist): (t: seq<SpacingEntry>)
    ensures |t| == |es|
    ensures forall i :: 0 <= i < |es| ==> t[i] == Row(es[i], d)
  {
    if es == [] then [] else [Row(es[0], d)] + Table(es[1..], d)
  }

  /** The action for one entry appends that entry's row. */
  lemma AddSpacingAppendsRow(r: Rule, e: Entry, d: Dbdist)
    ensures AddSpacing(r, e.width, e.spacing1, e.spacing2, d) == r.(spacings := r.spacings + [Row(e, d)])
  {
    var r' := AddSpacing(r, e.width, e.spacing1, e.spacing2, d);
    assert r'.spacings == r.spacings + [Row(e, d)];
  }

  /** Replacing the table twice is replacing it once. */
  lemma ReplaceTableTwice(r: Rule, a: seq<SpacingEntry>, b: seq<SpacingEntry>)
    ensures r.(spacings := a).(spacings := b) == r.(spacings := b)
  {
  }

  /** One entry's action followed by the rest of the table is the whole table. */
  lemma AppendsTableStep(es: seq<Entry>, r: Rule, d: Dbdist)
    requires es != []
    ensures var r1 := AddSpacing(r, es[0].width, es[0].spacing1, es[0].spacing2, d);
      r1.(spacings := r1.spacings + Table(es[1..], d)) == r.(spacings := r.spacings + Table(es, d))
  {
    var row := Row(es[0], d);
    var r1 := AddSpacing(r, es[0].width, es[0].spacing1, es[0].spacing2, d);
    var t := r.spacings + Table(es, d);
    assert r1.spacings + Table(es[1..], d) == t by {
      AddSpacingAppendsRow(r, es[0], d);
      assert Table(es, d) == [row] + Table(es[1..], d);
      AppendAssoc(r.spacings, [row], Table(es[1..], d));
    }
    AddSpacingAppendsRow(r, es[0], d);
    ReplaceTableTwice(r, r.spacings + [row], t);
  }

  /** Building the entries appends exactly their table and touches nothing else. */
  lemma {:induction false} BuildEntriesAppendsTable(es: seq<Entry>, r: Rule, d: Dbdist)
    ensures BuildEntries(es, r, d) == r.(spacings := r.spacings + Table(es, d))
  {
    if es == [] {
      assert r.spacings + Table(es, d) == r.spacings;
    } else {
      var r1 := AddSpacing(r, es[0].width, es[0].spacing1, es[0].spacing2, d);
      BuildEntriesAppendsTable(es[1..], r1, d);
      AppendsTableStep(es, r, d);
    }
  }

  /** While the corner part is built: the flags are consistent and no
      except-same flag is set yet. */
  predicate CornerStage(r: Rule)
  {
    ConsistentFlags(r) && !r.exceptSameNet && !r.exceptSameMetal
  }

  /** None of the end-of-line group's flags is set. */
  predicate EolFree(r: Rule)
  {
    !r.exceptEol && !r.exceptJogLength && !r.edgeLengthValid && !r.includeShape
  }

  lemma SameMaskKeeps(b: bool, r: Rule)
    requires CornerStage(r) && r.cornerType.ConvexCorner? && !r.cornerOnly && !r.cornerToCorner && EolFree(r)
    ensures var r' := BuildSameMask(b, r);
      CornerStage(r') && r'.cornerType.ConvexCorner? && !r'.cornerOnly && !r'.cornerToCorner && EolFree(r')
  {
  }

  lemma ModeKeeps(m: CornerMode, r: Rule, d: Dbdist)
    requires CornerStage(r) && r.cornerType.ConvexCorner? && !r.cornerOnly && !r.cornerToCorner && EolFree(r)
    ensures var r' := BuildMode(m, r, d);
      CornerStage(r') && r'.cornerType.ConvexCorner? && EolFree(r')
  {
  }

  lemma EdgeKeeps(v: Option<real>, r: Rule, d: Dbdist)
    requires CornerStage(r) && r.cornerType.ConvexCorner? && r.exceptJogLength && !r.edgeLengthValid && !r.includeShape
    ensures var r' := BuildEdge(v, r, d);
      CornerStage(r') && r'.cornerType.ConvexCorner? && r'.exceptJogLength && !r'.includeShape
  {
  }

  lemma JogKeeps(j: Option<JogExcept>, r: Rule, d: Dbdist)
    requires CornerStage(r) && r.cornerType.ConvexCorner? && r.exceptEol
    requires !r.exceptJogLength && !r.edgeLengthValid && !r.includeShape
    ensures CornerStage(BuildJog(j, r, d))
  {
    if j.Some? {
      var jog := SetJogLength(r, j.value.jogLength, d);
      assert CornerStage(jog) && jog.cornerType.ConvexCorner? && jog.exceptJogLength;
      EdgeKeeps(j.value.edgeLength, jog, d);
      var edge := BuildEdge(j.value.edgeLength, jog, d);
      if j.value.includeShape {
        assert CornerStage(SetIncludeShape(edge));
      }
    }
  }

  lemma EolKeeps(e: Option<EolExcept>, r: Rule, d: Dbdist)
    requires CornerStage(r) && r.cornerType.ConvexCorner? && EolFree(r)
    ensures CornerStage(BuildEol(e, r, d))
  {
    if e.Some? {
      var eol := SetEolWidth(r, e.value.eolWidth, d);
      assert CornerStage(eol) && eol.cornerType.ConvexCorner? && eol.exceptEol;
      JogKeeps(e.value.jog, eol, d);
    }
  }

  lemma NotchKeeps(n: Option<NotchExcept>, r: Rule, d: Dbdist)
    requires CornerStage(r) && r.cornerType.ConcaveCorner? && r.minLengthValid
    requires !r.exceptNotch && !r.exceptNotchLengthValid
    ensures CornerStage(BuildNotch(n, r, d))
  {
    if n.Some? {
      var notch := SetExceptNotch(r);
      assert CornerStage(notch) && notch.cornerType.ConcaveCorner? && notch.exceptNotch;
      if n.value.notchLength.Some? {
        assert CornerStage(SetExceptNotchLength(notch, n.value.notchLength.value, d));
      }
    }
  }

  lemma MinLengthKeeps(b: Option<MinLengthBlock>, r: Rule, d: Dbdist)
    requires CornerStage(r) && r.cornerType.ConcaveCorner?
    requires !r.minLengthValid && !r.exceptNotch && !r.exceptNotchLengthValid
    ensures CornerStage(BuildMinLength(b, r, d))
  {
    if b.Some? {
      var min := SetMinLength(r, b.value.minLength, d);
      assert CornerStage(min) && min.cornerType.ConcaveCorner? && min.minLengthValid;
      NotchKeeps(b.value.notch, min, d);
    }
  }

  /** The corner part of a clause, built on a fresh rule, keeps the flag invariants. */
  lemma BuildCornerConsistent(k: Corner, d: Dbdist)
    ensures ConsistentFlags(BuildCorner(k, NewRule(), d))
    ensures !BuildCorner(k, NewRule(), d).exceptSameNet && !BuildCorner(k, NewRule(), d).exceptSameMetal
  {
    match k
    case Convex(sameMask, mode, eol) =>
      var typed := SetType(NewRule(), CornerType.ConvexCorner);
      assert CornerStage(typed) && typed.cornerType.ConvexCorner? && !typed.cornerOnly && !typed.cornerToCorner && EolFree(typed);
      SameMaskKeeps(sameMask, typed);
      var mask := BuildSameMask(sameMask, typed);
      ModeKeeps(mode, mask, d);
      EolKeeps(eol, BuildMode(mode, mask, d), d);
    case Concave(block) =>
      var typed := SetType(NewRule(), CornerType.ConcaveCorner);
      assert CornerStage(typed) && typed.cornerType.ConcaveCorner?;
      MinLengthKeeps(block, typed, d);
  }

  /** Appending to the table leaves the flag invariants alone. */
  lemma SpacingsKeepFlags(r: Rule, t: seq<SpacingEntry>)
    requires ConsistentFlags(r)
    ensures ConsistentFlags(r.(spacings := t))
  {
  }

  /** Setting at most one except-same flag on a finished corner part keeps the flag invariants. */
  lemma ExceptSameKeeps(x: ExceptSame, r: Rule)
    requires CornerStage(r)
    ensures ConsistentFlags(BuildExceptSame(x, r))
  {
    match x
    case NoExceptSame =>
    case ExceptSameNet =>
    case ExceptSameMetal =>
  }

  /** Every well-formed clause builds a rule that keeps the structural invariants. */
  lemma BuildConsistent(c: Clause, d: Dbdist)
    requires WellFormed(c)
    ensures Consistent(Build(c, d))
  {
    var k := BuildCorner(c.corner, NewRule(), d);
    BuildCornerConsistent(c.corner, d);
    var x := BuildExceptSame(c.exceptSame, k);
    ExceptSameKeeps(c.exceptSame, k);
    var t := x.spacings + Table(c.entries, d);
    assert Build(c, d) == x.(spacings := t) by {
      BuildEntriesAppendsTable(c.entries, x, d);
    }
    SpacingsKeepFlags(x, t);
  }
}

=== FILE: corner_spacing_parser.dfy ===
/**
 * The CORNERSPACING grammar with its semantic actions, as an ordered-choice
 * parser over tokens:
 *
 *   CORNERSPACING (convexCorner | concaveCorner) [exceptSame] spacing+ ;
 *
 * Each component threads the rule through the actions it fires. As in the
 * combinator library the grammar is written in, an action that has fired is
 * not undone when an enclosing sequence later fails and the input is rewound:
 * `Optional` keeps the rule a failed group left behind. The contracts below
 * show that no group of this grammar fails after one of its actions fired,
 * which is what makes the final rule depend only on the matched input.
 */
module CornerSpacingParser {
  import opened Wrappers
  import opened LefTokens
  import opened CornerSpacingRule

  /** The outcome of one grammar component: whether it matched, the rule after
      every action that fired, and the input left over. */
  datatype Step = Step(matched: bool, rule: Rule, rest: seq<Token>)

  /** A matched component consumed at least one token; a failed one consumed
      nothing and fired no action. */
  predicate Disciplined(s: Step, ts: seq<Token>, r: Rule)
  {
    if s.matched then |s.rest| < |ts| else s.rule == r && s.rest == ts
  }

  /** A modifier group leaves the corner type and the spacing table alone. */
  predicate KeepsTypeAndTable(s: Step, r: Rule)
  {
    s.rule.cornerType.ConvexCorner? == r.cornerType.ConvexCorner? && s.rule.spacings == r.spacings
  }

  function Fail(ts: seq<Token>, r: Rule): Step
  {
    Step(false, r, ts)
  }

  /** `-p`: always matches; on failure of `p` rewinds the input but keeps the
      rule its actions produced. */
  function Optional(s: Step, ts: seq<Token>): Step
  {
    Step(true, s.rule, if s.matched then s.rest else ts)
  }

  /** SAMEMASK */
  function ParseSameMask(ts: seq<Token>, r: Rule): (s: Step)
    ensures Disciplined(s, ts, r)
    ensures KeepsTypeAndTable(s, r)
    ensures s.matched <==> StartsWith(ts, Kw(SAMEMASK))
  {
    if StartsWith(ts, Kw(SAMEMASK)) then Step(true, SetSameMask(r), ts[1..]) else Fail(ts, r)
  }

  /** (CORNERONLY number) | CORNERTOCORNER */
  function ParseCornerMode(ts: seq<Token>, r: Rule, d: Dbdist): (s: Step)
    ensures Disciplined(s, ts, r)
    ensures KeepsTypeAndTable(s, r)
    ensures s.matched && !r.cornerOnly && !r.cornerToCorner ==>
              s.rule.cornerOnly != s.rule.cornerToCorner
  {
    if StartsWith(ts, Kw(CORNERONLY)) && StartsWithNum(ts[1..]) then
      Step(true, SetWithin(r, ts[1].value, d), ts[2..])
    else if StartsWith(ts, Kw(CORNERTOCORNER)) then
      Step(true, SetCornerToCorner(r), ts[1..])
    else
      Fail(ts, r)
  }

  /** EDGELENGTH number */
  function ParseEdgeLength(ts: seq<Token>, r: Rule, d: Dbdist): (s: Step)
    ensures Disciplined(s, ts, r)
    ensures KeepsTypeAndTable(s, r)
  {
    if StartsWith(ts, Kw(EDGELENGTH)) && StartsWithNum(ts[1..]) then
      Step(true, SetEdgeLength(r, ts[1].value, d), ts[2..])
    else
      Fail(ts, r)
  }

  /** INCLUDELSHAPE */
  function ParseIncludeShape(ts: seq<Token>, r: Rule): (s: Step)
    ensures Disciplined(s, ts, r)
    ensures KeepsTypeAndTable(s, r)
  {
    if StartsWith(ts, Kw(INCLUDELSHAPE)) then Step(true, SetIncludeShape(r), ts[1..]) else Fail(ts, r)
  }

  /** EXCEPTJOGLENGTH number [EDGELENGTH number] [INCLUDELSHAPE] */
  function ParseExceptJogLength(ts: seq<Token>, r: Rule, d: Dbdist): (s: Step)
    ensures Disciplined(s, ts, r)
    ensures KeepsTypeAndTable(s, r)
    ensures s.matched ==> s.rule.exceptJogLength
  {
    if StartsWith(ts, Kw(EXCEPTJOGLENGTH)) && StartsWithNum(ts[1..]) then
      var jog := SetJogLength(r, ts[1].value, d);
      var edge := Optional(ParseEdgeLength(ts[2..], jog, d), ts[2..]);
      var shape := Optional(ParseIncludeShape(edge.rest, edge.rule), edge.rest);
      Step(true, shape.rule, shape.rest)
    else
      Fail(ts, r)
  }

  /** EXCEPTEOL number [exceptJogLength] */
  function ParseExceptEol(ts: seq<Token>, r: Rule, d: Dbdist): (s: Step)
    ensures Disciplined(s, ts, r)
    ensures KeepsTypeAndTable(s, r)
    ensures s.matched ==> s.rule.exceptEol
  {
    if StartsWith(ts, Kw(EXCEPTEOL)) && StartsWithNum(ts[1..]) then
      var eol := SetEolWidth(r, ts[1].value, d);
      var jog := Optional(ParseExceptJogLength(ts[2..], eol, d), ts[2..]);
      Step(true, jog.rule, jog.rest)
    else
      Fail(ts, r)
  }

  /** [SAMEMASK] [cornerMode] [exceptEol]: the convex modifiers, each optional, in this order. */
  function ParseConvexModifiers(ts: seq<Token>, r: Rule, d: Dbdist): (s: Step)
    ensures s.matched && |s.rest| <= |ts|
    ensures KeepsTypeAndTable(s, r)
  {
    var mask := Optional(ParseSameMask(ts, r), ts);
    var mode := Optional(ParseCornerMode(mask.rest, mask.rule, d), mask.rest);
    Optional(ParseExceptEol(mode.rest, mode.rule, d), mode.rest)
  }

  /** CONVEXCORNER [SAMEMASK] [cornerMode] [exceptEol] */
  function ParseConvexCorner(ts: seq<Token>, r: Rule, d: Dbdist): (s: Step)
    ensures Disciplined(s, ts, r)
    ensures s.matched <==> StartsWith(ts, Kw(CONVEXCORNER))
    ensures s.matched ==> s.rule.cornerType.ConvexCorner? && s.rule.spacings == r.spacings
  {
    if StartsWith(ts, Kw(CONVEXCORNER)) then
      ParseConvexModifiers(ts[1..], SetType(r, CornerType.ConvexCorner), d)
    else
      Fail(ts, r)
  }

  /** EXCEPTNOTCH [number] */
  function ParseExceptNotch(ts: seq<Token>, r: Rule, d: Dbdist): (s: Step)
    ensures Disciplined(s, ts, r)
    ensures KeepsTypeAndTable(s, r)
  {
    if StartsWith(ts, Kw(EXCEPTNOTCH)) then
      var notch := SetExceptNotch(r);
      if StartsWithNum(ts[1..]) then
        Step(true, SetExceptNotchLength(notch, ts[1].value, d), ts[2..])
      else
        Step(true, notch, ts[1..])
    else
      Fail(ts, r)
  }

  /** MINLENGTH number [exceptNotch] */
  function ParseMinLength(ts: seq<Token>, r: Rule, d: Dbdist): (s: Step)
    ensures Disciplined(s, ts, r)
    ensures KeepsTypeAndTable(s, r)
  {
    if StartsWith(ts, Kw(MINLENGTH)) && StartsWithNum(ts[1..]) then
      var min := SetMinLength(r, ts[1].value, d);
      var notch := Optional(ParseExceptNotch(ts[2..], min, d), ts[2..]);
      Step(true, notch.rule, notch.rest)
    else
      Fail(ts, r)
  }

  /** CONCAVECORNER [minLength] */
  function ParseConcaveCorner(ts: seq<Token>, r: Rule, d: Dbdist): (s: Step)
    ensures Disciplined(s, ts, r)
    ensures s.matched <==> StartsWith(ts, Kw(CONCAVECORNER))
    ensures s.matched ==> s.rule.cornerType.ConcaveCorner? && s.rule.spacings == r.spacings
  {
    if StartsWith(ts, Kw(CONCAVECORNER)) then
      var typed := SetType(r, CornerType.ConcaveCorner);
      var min := Optional(ParseMinLength(ts[1..], typed, d), ts[1..]);
      Step(true, min.rule, min.rest)
    else
      Fail(ts, r)
  }

  /** convexCorner | concaveCorner, tried in that order. */
  function ParseCorner(ts: seq<Token>, r: Rule, d: Dbdist): (s: Step)
    ensures Disciplined(s, ts, r)
    ensures s.matched <==> StartsWith(ts, Kw(CONVEXCORNER)) || StartsWith(ts, Kw(CONCAVECORNER))
  {
    var convex := ParseConvexCorner(ts, r, d);
    if convex.matched then convex else ParseConcaveCorner(ts, convex.rule, d)
  }

  /** EXCEPTSAMENET | EXCEPTSAMEMETAL */
  function ParseExceptSame(ts: seq<Token>, r: Rule): (s: Step)
    ensures Disciplined(s, ts, r)
    ensures KeepsTypeAndTable(s, r)
    ensures s.matched ==> s.rule.exceptSameNet != s.rule.exceptSameMetal || r.exceptSameNet || r.exceptSameMetal
  {
    if StartsWith(ts, Kw(EXCEPTSAMENET)) then
      Step(true, SetExceptSameNet(r), ts[1..])
    else if StartsWith(ts, Kw(EXCEPTSAMEMETAL)) then
      Step(true, SetExceptSameMetal(r), ts[1..])
    else
      Fail(ts, r)
  }

  /** WIDTH number SPACING number [number]; the action fires once the whole group matched. */
  function ParseSpacing(ts: seq<Token>, r: Rule, d: Dbdist): (s: Step)
    ensures Disciplined(s, ts, r)
    ensures s.matched ==> |s.rule.spacings| == |r.spacings| + 1 && s.rule.spacings[..|r.spacings|] == r.spacings
  {
    if StartsWith(ts, Kw(WIDTH)) && StartsWithNum(ts[1..]) && StartsWith(ts[2..], Kw(SPACING))
       && StartsWithNum(ts[3..])
    then
      if StartsWithNum(ts[4..]) then
        Step(true, AddSpacing(r, ts[1].value, ts[3].value, Some(ts[4].value), d), ts[5..])
      else
        Step(true, AddSpacing(r, ts[1].value, ts[3].value, None, d), ts[4..])
    else
      Fail(ts, r)
  }

  /** spacing+ : one or more rows, each appended after the ones before it. */
  function ParseSpacings(ts: seq<Token>, r: Rule, d: Dbdist): (s: Step)
    ensures Disciplined(s, ts, r)
    ensures s.matched ==> |s.rule.spacings| > |r.spacings| && s.rule.spacings[..|r.spacings|] == r.spacings
    decreases |ts|
  {
    var first := ParseSpacing(ts, r, d);
    if !first.matched then
      first
    else
      var more := ParseSpacings(first.rest, first.rule, d);
      if more.matched then more else Step(true, more.rule, first.rest)
  }

  /** The whole clause: CORNERSPACING corner [exceptSame] spacing+ ; */
  function ParseCornerSpacing(ts: seq<Token>, r: Rule, d: Dbdist): (s: Step)
    ensures s.matched ==> |s.rest| < |ts| && |s.rule.spacings| > |r.spacings|
    ensures !s.matched ==> s.rest == ts
  {
    if !StartsWith(ts, Kw(CORNERSPACING)) then
      Fail(ts, r)
    else
      var corner := ParseCorner(ts[1..], r, d);
      if !corner.matched then
        Step(false, corner.rule, ts)
      else
        var same := Optional(ParseExceptSame(corner.rest, corner.rule), corner.rest);
        var table := ParseSpacings(same.rest, same.rule, d);
        if !table.matched then
          Step(false, table.rule, ts)
        else if StartsWith(table.rest, Semi) then
          Step(true, table.rule, table.rest[1..])
        else
          Step(false, table.rule, ts)
  }

  /** The clause is accepted only when the grammar matches AND consumes every token. */
  function Parse(ts: seq<Token>, d: Dbdist): (res: Option<Rule>)
    ensures res.Some? ==> |res.value.spacings| > 0 && StartsWith(ts, Kw(CORNERSPACING))
  {
    var s := ParseCornerSpacing(ts, NewRule(), d);
    if s.matched && s.rest == [] then Some(s.rule) else None
  }
}

=== FILE: corner_spacing_properties.dfy ===
/**
 * What an accepted CORNERSPACING clause guarantees about the rule it yields,
 * stated over the token sequence that was accepted.
 */
module CornerSpacingProperties {
  import opened Wrappers
  import opened LefTokens
  import opened CornerSpacingRule
  import opened CornerSpacingParser
  import opened CornerSpacingClause
  import opened ClauseParsing

  // ------------------------------------------------ acceptance = the clauses

  /** Completeness: the tokens of every well-formed clause are accepted and
      yield exactly the rule the clause builds. */
  lemma ParseRender(c: Clause, d: Dbdist)
    requires WellFormed(c)
    ensures Parse(Render(c), d) == Some(Build(c, d))
  {
    ClauseRendered(c, [], d);
    assert Render(c) + [] == Render(c);
  }

  /** Soundness: an accepted token sequence is the rendering of a well-formed
      clause, and the rule is the one that clause builds. */
  lemma ParseSound(ts: seq<Token>, d: Dbdist)
    requires Parse(ts, d).Some?
    ensures exists c :: WellFormed(c) && Render(c) == ts && Build(c, d) == Parse(ts, d).value
  {
    var c := ClauseParsed(ts, d);
    assert ts == Render(c) + [];
  }

  /** A token sequence is accepted exactly when it is the rendering of a
      well-formed clause. */
  lemma AcceptedIffClause(ts: seq<Token>, d: Dbdist)
    ensures Parse(ts, d).Some? <==> exists c :: WellFormed(c) && Render(c) == ts
  {
    if Parse(ts, d).Some? {
      ParseSound(ts, d);
    }
    if c :| WellFormed(c) && Render(c) == ts {
      ParseRender(c, d);
    }
  }

  /** Full consumption: tokens after the terminating ";" of an accepted clause
      make the input rejected. */
  lemma TrailingTokensRejected(ts: seq<Token>, extra: seq<Token>, d: Dbdist)
    requires Parse(ts, d).Some?
    requires |extra| > 0
    ensures Parse(ts + extra, d) == None
  {
    var c := ClauseParsed(ts, d);
    assert ts == Render(c);
    ClauseRendered(c, extra, d);
  }

  // ------------------------------------------------------------ invariants

  /** Every accepted clause yields a rule that keeps the structural invariants:
      branch exclusivity, corner-mode exclusivity, modifier nesting,
      except-same exclusivity and a non-empty table. */
  lemma ParsedRuleConsistent(ts: seq<Token>, d: Dbdist)
    requires Parse(ts, d).Some?
    ensures Consistent(Parse(ts, d).value)
  {
    var c := ClauseParsed(ts, d);
    BuildConsistent(c, d);
  }

  /** The corner keyword is the second token of every clause. */
  lemma RenderedCornerKeyword(c: Clause)
    ensures |Render(c)| > 1 && Render(c)[0] == Kw(CORNERSPACING)
    ensures Render(c)[1] == (if c.corner.Convex? then Kw(CONVEXCORNER) else Kw(CONCAVECORNER))
  {
    var tail := RenderExceptSame(c.exceptSame) + (RenderEntries(c.entries) + [Semi]);
    assert Render(c)[1..] == RenderCorner(c.corner) + tail;
    assert (RenderCorner(c.corner) + tail)[0] == RenderCorner(c.corner)[0];
  }

  /** The corner type is CONVEXCORNER exactly when that keyword follows
      CORNERSPACING, and CONCAVECORNER exactly when that one does. */
  lemma CornerTypeFromKeyword(ts: seq<Token>, d: Dbdist)
    requires Parse(ts, d).Some?
    ensures |ts| > 1 && ts[0] == Kw(CORNERSPACING)
    ensures Parse(ts, d).value.cornerType.ConvexCorner? <==> ts[1] == Kw(CONVEXCORNER)
    ensures Parse(ts, d).value.cornerType.ConcaveCorner? <==> ts[1] == Kw(CONCAVECORNER)
  {
    var c := ClauseParsed(ts, d);
    assert ts == Render(c) + [];
    RenderedCornerKeyword(c);
    BuildMarks(c, d);
  }

  // ------------------------------------------- keywords recorded as flags

  // Each action records, on top of what the rule already recorded, exactly
  // the keyword of the tokens its group consumed.

  lemma NothingMarked(m: Marks)
    ensures Union(m, Mentions([])) == m
  {
  }

  lemma NumberMarksNothing(m: Marks, v: real)
    ensures Union(m, Mentions([Num(v)])) == m
  {
    assert Mentions([Num(v)]) == NoMarks();
  }

  lemma SetTypeMarks(t: CornerType)
    ensures RecordedMarks(SetType(NewRule(), t)) ==
      Mentions([Kw(CORNERSPACING), Kw(if t.ConvexCorner? then CONVEXCORNER else CONCAVECORNER)])
  {
  }

  lemma SetSameMaskMarks(r: Rule)
    ensures RecordedMarks(SetSameMask(r)) == Union(RecordedMarks(r), Mentions([Kw(SAMEMASK)]))
  {
    var r' := SetSameMask(r);
    assert r'.cornerType == r.cornerType && r'.spacings == r.spacings;
  }

  lemma SetWithinMarks(r: Rule, v: real, d: Dbdist)
    ensures RecordedMarks(SetWithin(r, v, d)) == Union(RecordedMarks(r), Mentions([Kw(CORNERONLY), Num(v)]))
  {
    var r' := SetWithin(r, v, d);
    assert r'.cornerType == r.cornerType && r'.spacings == r.spacings;
  }

  lemma SetCornerToCornerMarks(r: Rule)
    ensures RecordedMarks(SetCornerToCorner(r)) == Union(RecordedMarks(r), Mentions([Kw(CORNERTOCORNER)]))
  {
    var r' := SetCornerToCorner(r);
    assert r'.cornerType == r.cornerType && r'.spacings == r.spacings;
  }

  lemma SetEolWidthMarks(r: Rule, v: real, d: Dbdist)
    ensures RecordedMarks(SetEolWidth(r, v, d)) == Union(RecordedMarks(r), Mentions([Kw(EXCEPTEOL), Num(v)]))
  {
    var r' := SetEolWidth(r, v, d);
    assert r'.cornerType == r.cornerType && r'.spacings == r.spacings;
  }

  lemma SetJogLengthMarks(r: Rule, v: real, d: Dbdist)
    ensures RecordedMarks(SetJogLength(r, v, d)) == Union(RecordedMarks(r), Mentions([Kw(EXCEPTJOGLENGTH), Num(v)]))
  {
    var r' := SetJogLength(r, v, d);
    assert r'.cornerType == r.cornerType && r'.spacings == r.spacings;
  }

  lemma SetEdgeLengthMarks(r: Rule, v: real, d: Dbdist)
    ensures RecordedMarks(SetEdgeLength(r, v, d)) == Union(RecordedMarks(r), Mentions([Kw(EDGELENGTH), Num(v)]))
  {
    var r' := SetEdgeLength(r, v, d);
    assert r'.cornerType == r.cornerType && r'.spacings == r.spacings;
  }

  lemma SetIncludeShapeMarks(r: Rule)
    ensures RecordedMarks(SetIncludeShape(r)) == Union(RecordedMarks(r), Mentions([Kw(INCLUDELSHAPE)]))
  {
    var r' := SetIncludeShape(r);
    assert r'.cornerType == r.cornerType && r'.spacings == r.spacings;
  }

  lemma SetMinLengthMarks(r: Rule, v: real, d: Dbdist)
    ensures RecordedMarks(SetMinLength(r, v, d)) == Union(RecordedMarks(r), Mentions([Kw(MINLENGTH), Num(v)]))
  {
    var r' := SetMinLength(r, v, d);
    assert r'.cornerType == r.cornerType && r'.spacings == r.spacings;
  }

  lemma SetExceptNotchMarks(r: Rule)
    ensures RecordedMarks(SetExceptNotch(r)) == Union(RecordedMarks(r), Mentions([Kw(EXCEPTNOTCH)]))
  {
    var r' := SetExceptNotch(r);
    assert r'.cornerType == r.cornerType && r'.spacings == r.spacings;
  }

  /** The notch length is a bare number: it records nothing new. */
  lemma SetExceptNotchLengthMarks(r: Rule, v: real, d: Dbdist)
    ensures RecordedMarks(SetExceptNotchLength(r, v, d)) == RecordedMarks(r)
  {
    var r' := SetExceptNotchLength(r, v, d);
    assert r'.cornerType == r.cornerType && r'.spacings == r.spacings;
  }

  lemma SetExceptSameNetMarks(r: Rule)
    ensures RecordedMarks(SetExceptSameNet(r)) == Union(RecordedMarks(r), Mentions([Kw(EXCEPTSAMENET)]))
  {
    var r' := SetExceptSameNet(r);
    assert r'.cornerType == r.cornerType && r'.spacings == r.spacings;
  }

  lemma SetExceptSameMetalMarks(r: Rule)
    ensures RecordedMarks(SetExceptSameMetal(r)) == Union(RecordedMarks(r), Mentions([Kw(EXCEPTSAMEMETAL)]))
  {
    var r' := SetExceptSameMetal(r);
    assert r'.cornerType == r.cornerType && r'.spacings == r.spacings;
  }

  // Each group of the grammar records, on top of what the rule already
  // recorded, exactly the keywords it renders.

  lemma SameMaskMarks(b: bool, r: Rule)
    ensures RecordedMarks(BuildSameMask(b, r)) == Union(RecordedMarks(r), Mentions(RenderFlag(b, SAMEMASK)))
  {
    if b {
      SetSameMaskMarks(r);
    } else {
      NothingMarked(RecordedMarks(r));
    }
  }

  lemma ModeMarks(m: CornerMode, r: Rule, d: Dbdist)
    ensures RecordedMarks(BuildMode(m, r, d)) == Union(RecordedMarks(r), Mentions(RenderMode(m)))
  {
    match m
    case NoCornerMode => NothingMarked(RecordedMarks(r));
    case CornerOnly(w) => SetWithinMarks(r, w, d);
    case CornerToCorner => SetCornerToCornerMarks(r);
  }

  lemma EdgeMarks(v: Option<real>, r: Rule, d: Dbdist)
    ensures RecordedMarks(BuildEdge(v, r, d)) == Union(RecordedMarks(r), Mentions(RenderEdge(v)))
  {
    if v.Some? {
      SetEdgeLengthMarks(r, v.value, d);
    } else {
      NothingMarked(RecordedMarks(r));
    }
  }

  lemma IncludeShapeMarks(b: bool, r: Rule)
    ensures RecordedMarks(BuildIncludeShape(b, r)) == Union(RecordedMarks(r), Mentions(RenderFlag(b, INCLUDELSHAPE)))
  {
    if b {
      SetIncludeShapeMarks(r);
    } else {
      NothingMarked(RecordedMarks(r));
    }
  }

  /** Three groups in a row record what their concatenation mentions. */
  lemma ThreeGroups(m: Marks, a: seq<Token>, b: seq<Token>, c: seq<Token>)
    ensures Union(Union(Union(m, Mentions(a)), Mentions(b)), Mentions(c)) == Union(m, Mentions(a + (b + c)))
  {
    MentionsAppend(a, b + c);
    MentionsAppend(b, c);
    UnionAssoc(m, Mentions(a), Union(Mentions(b), Mentions(c)));
    UnionAssoc(Union(m, Mentions(a)), Mentions(b), Mentions(c));
  }

  /** Two groups in a row record what their concatenation mentions. */
  lemma TwoGroups(m: Marks, a: seq<Token>, b: seq<Token>)
    ensures Union(Union(m, Mentions(a)), Mentions(b)) == Union(m, Mentions(a + b))
  {
    MentionsAppend(a, b);
    UnionAssoc(m, Mentions(a), Mentions(b));
  }

  lemma JogMarks(j: Option<JogExcept>, r: Rule, d: Dbdist)
    ensures RecordedMarks(BuildJog(j, r, d)) == Union(RecordedMarks(r), Mentions(RenderJog(j)))
  {
    if j.Some? {
      var head := [Kw(EXCEPTJOGLENGTH), Num(j.value.jogLength)];
      var jog := SetJogLength(r, j.value.jogLength, d);
      SetJogLengthMarks(r, j.value.jogLength, d);
      EdgeMarks(j.value.edgeLength, jog, d);
      IncludeShapeMarks(j.value.includeShape, BuildEdge(j.value.edgeLength, jog, d));
      ThreeGroups(RecordedMarks(r), head, RenderEdge(j.value.edgeLength),
        RenderFlag(j.value.includeShape, INCLUDELSHAPE));
    } else {
      NothingMarked(RecordedMarks(r));
    }
  }

  lemma EolMarks(e: Option<EolExcept>, r: Rule, d: Dbdist)
    ensures RecordedMarks(BuildEol(e, r, d)) == Union(RecordedMarks(r), Mentions(RenderEol(e)))
  {
    if e.Some? {
      var head := [Kw(EXCEPTEOL), Num(e.value.eolWidth)];
      SetEolWidthMarks(r, e.value.eolWidth, d);
      JogMarks(e.value.jog, SetEolWidth(r, e.value.eolWidth, d), d);
      TwoGroups(RecordedMarks(r), head, RenderJog(e.value.jog));
    } else {
      NothingMarked(RecordedMarks(r));
    }
  }

  lemma NotchMarks(n: Option<NotchExcept>, r: Rule, d: Dbdist)
    ensures RecordedMarks(BuildNotch(n, r, d)) == Union(RecordedMarks(r), Mentions(RenderNotch(n)))
  {
    if n.Some? {
      var notch := SetExceptNotch(r);
      var len := n.value.notchLength;
      SetExceptNotchMarks(r);
      if len.Some? {
        SetExceptNotchLengthMarks(notch, len.value, d);
        NumberMarksNothing(RecordedMarks(notch), len.value);
      } else {
        NothingMarked(RecordedMarks(notch));
      }
      TwoGroups(RecordedMarks(r), [Kw(EXCEPTNOTCH)], OptNum(len));
    } else {
      NothingMarked(RecordedMarks(r));
    }
  }

  lemma MinLengthMarks(b: Option<MinLengthBlock>, r: Rule, d: Dbdist)
    ensures RecordedMarks(BuildMinLength(b, r, d)) == Union(RecordedMarks(r), Mentions(RenderMinLength(b)))
  {
    if b.Some? {
      var head := [Kw(MINLENGTH), Num(b.value.minLength)];
      SetMinLengthMarks(r, b.value.minLength, d);
      NotchMarks(b.value.notch, SetMinLength(r, b.value.minLength, d), d);
      TwoGroups(RecordedMarks(r), head, RenderNotch(b.value.notch));
    } else {
      NothingMarked(RecordedMarks(r));
    }
  }

  lemma ConvexMarks(b: bool, m: CornerMode, e: Option<EolExcept>, d: Dbdist)
    ensures RecordedMarks(BuildCorner(Convex(b, m, e), NewRule(), d))
      == Mentions([Kw(CORNERSPACING), Kw(CONVEXCORNER)] + (RenderFlag(b, SAMEMASK) + (RenderMode(m) + RenderEol(e))))
  {
    var head := [Kw(CORNERSPACING), Kw(CONVEXCORNER)];
    var typed := SetType(NewRule(), CornerType.ConvexCorner);
    var mask := BuildSameMask(b, typed);
    SetTypeMarks(CornerType.ConvexCorner);
    SameMaskMarks(b, typed);
    ModeMarks(m, mask, d);
    EolMarks(e, BuildMode(m, mask, d), d);
    ThreeGroups(Mentions(head), RenderFlag(b, SAMEMASK), RenderMode(m), RenderEol(e));
    MentionsAppend(head, RenderFlag(b, SAMEMASK) + (RenderMode(m) + RenderEol(e)));
  }

  lemma ConcaveMarks(block: Option<MinLengthBlock>, d: Dbdist)
    ensures RecordedMarks(BuildCorner(Concave(block), NewRule(), d))
      == Mentions([Kw(CORNERSPACING), Kw(CONCAVECORNER)] + RenderMinLength(block))
  {
    var head := [Kw(CORNERSPACING), Kw(CONCAVECORNER)];
    SetTypeMarks(CornerType.ConcaveCorner);
    MinLengthMarks(block, SetType(NewRule(), CornerType.ConcaveCorner), d);
    MentionsAppend(head, RenderMinLength(block));
  }

  /** On a fresh rule the corner branch records CORNERSPACING and exactly the
      keywords it renders. */
  lemma CornerMarks(corner: Corner, d: Dbdist)
    ensures RecordedMarks(BuildCorner(corner, NewRule(), d)) == Mentions([Kw(CORNERSPACING)] + RenderCorner(corner))
  {
    match corner
    case Convex(b, m, e) =>
      ConvexMarks(b, m, e, d);
      ConsTwo(Kw(CORNERSPACING), Kw(CONVEXCORNER), RenderFlag(b, SAMEMASK) + (RenderMode(m) + RenderEol(e)));
    case Concave(block) =>
      ConcaveMarks(block, d);
      ConsTwo(Kw(CORNERSPACING), Kw(CONCAVECORNER), RenderMinLength(block));
  }

  lemma ExceptSameMarks(x: ExceptSame, r: Rule)
    ensures RecordedMarks(BuildExceptSame(x, r)) == Union(RecordedMarks(r), Mentions(RenderExceptSame(x)))
  {
    match x
    case NoExceptSame => NothingMarked(RecordedMarks(r));
    case ExceptSameNet => SetExceptSameNetMarks(r);
    case ExceptSameMetal => SetExceptSameMetalMarks(r);
  }

  /** The marks of WIDTH and SPACING together, or of nothing. */
  function TableMarks(b: bool): Marks
  {
    NoMarks().(width := b, spacing := b)
  }

  lemma WidthMentions(w: real)
    ensures Mentions([Kw(WIDTH), Num(w)]) == NoMarks().(width := true)
  {
  }

  lemma SpacingMentions(s: real)
    ensures Mentions([Kw(SPACING), Num(s)]) == NoMarks().(spacing := true)
  {
  }

  lemma EntryMentions(e: Entry)
    ensures Mentions(RenderEntry(e)) == TableMarks(true)
  {
    var w := [Kw(WIDTH), Num(e.width)];
    var s := [Kw(SPACING), Num(e.spacing1)];
    WidthMentions(e.width);
    SpacingMentions(e.spacing1);
    assert w + s == [Kw(WIDTH), Num(e.width), Kw(SPACING), Num(e.spacing1)];
    MentionsAppend(w, s);
    MentionsAppend(w + s, OptNum(e.spacing2));
    if e.spacing2.Some? {
      NumberMarksNothing(Mentions(w + s), e.spacing2.value);
    } else {
      NothingMarked(Mentions(w + s));
    }
  }

  /** The WIDTH groups mention no keyword but WIDTH and SPACING. */
  lemma {:induction false} EntriesMentions(es: seq<Entry>)
    ensures Mentions(RenderEntries(es)) == TableMarks(|es| > 0)
  {
    if es != [] {
      EntriesMentions(es[1..]);
      EntryMentions(es[0]);
      MentionsAppend(RenderEntry(es[0]), RenderEntries(es[1..]));
    }
  }

  lemma SpacingsMarks(r: Rule, s: seq<SpacingEntry>)
    ensures RecordedMarks(r.(spacings := s)) == RecordedMarks(r).(width := |s| > 0, spacing := |s| > 0)
  {
  }

  /** Marking a table that is non-empty exactly when the old one or the new rows are. */
  lemma WidenTable(m: Marks, a: bool, b: bool)
    requires m.width == m.spacing && a == (m.width || b)
    ensures m.(width := a, spacing := a) == Union(m, TableMarks(b))
  {
  }

  lemma EntriesMarks(es: seq<Entry>, r: Rule, d: Dbdist)
    ensures RecordedMarks(BuildEntries(es, r, d)) == Union(RecordedMarks(r), Mentions(RenderEntries(es)))
  {
    var s := r.spacings + Table(es, d);
    BuildEntriesAppendsTable(es, r, d);
    SpacingsMarks(r, s);
    EntriesMentions(es);
    WidenTable(RecordedMarks(r), |s| > 0, |es| > 0);
  }

  /** A clause's rule records exactly the keywords its tokens contain. */
  lemma BuildMarks(c: Clause, d: Dbdist)
    ensures RecordedMarks(Build(c, d)) == Mentions(Render(c))
  {
    var head := [Kw(CORNERSPACING)] + RenderCorner(c.corner);
    var xs := RenderExceptSame(c.exceptSame);
    var es := RenderEntries(c.entries);
    var corner := BuildCorner(c.corner, NewRule(), d);
    CornerMarks(c.corner, d);
    ExceptSameMarks(c.exceptSame, corner);
    EntriesMarks(c.entries, BuildExceptSame(c.exceptSame, corner), d);
    ThreeGroups(Mentions(head), xs, es, [Semi]);
    MentionsAppend(head, xs + (es + [Semi]));
    assert Render(c) == head + (xs + (es + [Semi])) by {
      AppendAssoc([Kw(CORNERSPACING)], RenderCorner(c.corner), xs + (es + [Semi]));
    }
  }

  /** Flags mirror keywords: in an accepted clause each keyword occurs exactly
      when the rule records it (the corner type, a non-empty table, or the
      modifier's own flag). */
  lemma KeywordsRecorded(ts: seq<Token>, d: Dbdist)
    requires Parse(ts, d).Some?
    ensures RecordedMarks(Parse(ts, d).value) == Mentions(ts)
    ensures forall k :: Recorded(Parse(ts, d).value, k) <==> Kw(k) in ts
  {
    var c := ClauseParsed(ts, d);
    assert ts == Render(c) + [];
    BuildMarks(c, d);
  }
}

=== FILE: corner_spacing_rule.dfy ===
/**
 * The rule record a CORNERSPACING clause populates, and the semantic actions
 * (setters) the grammar fires on it. Every numeric action converts the raw
 * literal with the injected database-unit conversion `d` before storing it.
 */
module CornerSpacingRule {
  import opened Wrappers
  import opened LefTokens

  datatype CornerType = ConvexCorner | ConcaveCorner

  /** One row of the spacing table, in database units. */
  datatype SpacingEntry = SpacingEntry(width: int, spacing1: int, spacing2: int)

  /** A corner-spacing rule: each "valid"/mode flag next to the value it guards. */
  datatype Rule = Rule(
    cornerType: CornerType,
    sameMask: bool,
    cornerOnly: bool,
    within: int,
    cornerToCorner: bool,
    exceptEol: bool,
    eolWidth: int,
    exceptJogLength: bool,
    jogLength: int,
    edgeLengthValid: bool,
    edgeLength: int,
    includeShape: bool,
    minLengthValid: bool,
    minLength: int,
    exceptNotch: bool,
    exceptNotchLengthValid: bool,
    exceptNotchLength: int,
    exceptSameNet: bool,
    exceptSameMetal: bool,
    spacings: seq<SpacingEntry>)

  /** Conversion of a LEF distance (microns) to database units. */
  type Dbdist = real -> int

  /** The rule as freshly created on the layer: nothing set, empty table. */
  function NewRule(): Rule
  {
    Rule(ConvexCorner, false, false, 0, false, false, 0, false, 0, false, 0,
         false, false, 0, false, false, 0, false, false, [])
  }

  function SetType(r: Rule, t: CornerType): Rule
  {
    r.(cornerType := t)
  }

  function SetSameMask(r: Rule): Rule
  {
    r.(sameMask := true)
  }

  function SetWithin(r: Rule, v: real, d: Dbdist): Rule
  {
    r.(cornerOnly := true, within := d(v))
  }

  function SetCornerToCorner(r: Rule): Rule
  {
    r.(cornerToCorner := true)
  }

  function SetEolWidth(r: Rule, v: real, d: Dbdist): Rule
  {
    r.(exceptEol := true, eolWidth := d(v))
  }

  function SetJogLength(r: Rule, v: real, d: Dbdist): Rule
  {
    r.(exceptJogLength := true, jogLength := d(v))
  }

  function SetEdgeLength(r: Rule, v: real, d: Dbdist): Rule
  {
    r.(edgeLengthValid := true, edgeLength := d(v))
  }

  function SetIncludeShape(r: Rule): Rule
  {
    r.(includeShape := true)
  }

  function SetMinLength(r: Rule, v: real, d: Dbdist): Rule
  {
    r.(minLengthValid := true, minLength := d(v))
  }

  function SetExceptNotch(r: Rule): Rule
  {
    r.(exceptNotch := true)
  }

  function SetExceptNotchLength(r: Rule, v: real, d: Dbdist): Rule
  {
    r.(exceptNotchLengthValid := true, exceptNotchLength := d(v))
  }

  function SetExceptSameNet(r: Rule): Rule
  {
    r.(exceptSameNet := true)
  }

  function SetExceptSameMetal(r: Rule): Rule
  {
    r.(exceptSameMetal := true)
  }

  /**
   * The spacing-table action: appends one row, never replacing an earlier one;
   * an omitted second spacing takes the converted first spacing.
   */
  function AddSpacing(r: Rule, width: real, spacing1: real, spacing2: Option<real>, d: Dbdist): (r': Rule)
    ensures |r'.spacings| == |r.spacings| + 1
    ensures r'.spacings == r.spacings + [r'.spacings[|r.spacings|]]
    ensures r'.spacings[|r.spacings|].width == d(width)
    ensures r'.spacings[|r.spacings|].spacing1 == d(spacing1)
    ensures spacing2.Some? ==> r'.spacings[|r.spacings|].spacing2 == d(spacing2.value)
    ensures spacing2.None? ==> r'.spacings[|r.spacings|].spacing2 == r'.spacings[|r.spacings|].spacing1
    ensures r' == r.(spacings := r'.spacings)
  {
    var w := d(width);
    var s1 := d(spacing1);
    if spacing2.Some? then
      r.(spacings := r.spacings + [SpacingEntry(w, s1, d(spacing2.value))])
    else
      r.(spacings := r.spacings + [SpacingEntry(w, s1, s1)])
  }

  /**
   * The structural invariants of a rule built from one clause: which flags can
   * be set together and how the optional modifiers nest.
   */
  predicate ConsistentFlags(r: Rule)
  {
    && (r.cornerType.ConvexCorner? ==>
          !r.minLengthValid && !r.exceptNotch && !r.exceptNotchLengthValid)
    && (r.cornerType.ConcaveCorner? ==>
          && !r.sameMask && !r.cornerOnly && !r.cornerToCorner && !r.exceptEol
          && !r.exceptJogLength && !r.edgeLengthValid && !r.includeShape)
    && !(r.cornerOnly && r.cornerToCorner)
    && (r.edgeLengthValid ==> r.exceptJogLength)
    && (r.includeShape ==> r.exceptJogLength)
    && (r.exceptJogLength ==> r.exceptEol)
    && (r.exceptNotchLengthValid ==> r.exceptNotch)
    && (r.exceptNotch ==> r.minLengthValid)
    && !(r.exceptSameNet && r.exceptSameMetal)
  }

  /** The invariants of a committed rule: consistent flags and a non-empty table. */
  predicate Consistent(r: Rule)
  {
    ConsistentFlags(r) && |r.spacings| > 0
  }

  /**
   * The keywords the rule records that its clause contained: CORNERSPACING
   * always, the corner keywords by the corner type, WIDTH and SPACING by a
   * non-empty table, every modifier by its own flag. EXCEPTNOTCH's optional
   * length has no keyword of its own.
   */
  function RecordedMarks(r: Rule): Marks
  {
    Marks(true, r.cornerType.ConvexCorner?, r.cornerType.ConcaveCorner?, r.sameMask,
      r.cornerOnly, r.cornerToCorner, r.exceptEol, r.exceptJogLength,
      r.edgeLengthValid, r.includeShape, r.minLengthValid, r.exceptNotch,
      r.exceptSameNet, r.exceptSameMetal, |r.spacings| > 0, |r.spacings| > 0)
  }

  /** Whether the rule records that its clause contained keyword `k`. */
  predicate Recorded(r: Rule, k: Keyword)
  {
    Marked(RecordedMarks(r), k)
  }
}

=== FILE: layer_commit.dfy ===
/**
 * The entry point that reads one CORNERSPACING clause into a layer: a fresh
 * rule is created on the layer first, the grammar's actions fill it in, and
 * the rule is destroyed again unless the grammar matched and consumed the
 * whole clause. A layer's corner-spacing rules are a plain sequence here.
 */
module LayerCommit {
  import opened Wrappers
  import opened LefTokens
  import opened CornerSpacingRule
  import opened CornerSpacingParser
  import opened CornerSpacingProperties

  /** The result the reader reports, and the layer's rules afterwards. */
  datatype Outcome = Outcome(valid: bool, rules: seq<Rule>)

  /** Removes the rule at index `i`. */
  function Destroy(rules: seq<Rule>, i: nat): (rules': seq<Rule>)
    requires i < |rules|
    ensures |rules'| == |rules| - 1
    ensures forall j :: 0 <= j < i ==> rules'[j] == rules[j]
    ensures forall j :: i <= j < |rules'| ==> rules'[j] == rules[j + 1]
  {
    rules[..i] + rules[i + 1..]
  }

  /**
   * Create, parse, then destroy on failure: the rule is appended before the
   * grammar runs, the actions write into it where it stands, and the clause
   * is valid only when the grammar matched and no token is left over.
   */
  function ReadClause(ts: seq<Token>, rules: seq<Rule>, d: Dbdist): Outcome
  {
    var created := rules + [NewRule()];
    var s := ParseCornerSpacing(ts, created[|rules|], d);
    var filled := created[|rules| := s.rule];
    var valid := s.matched && s.rest == [];
    if valid then Outcome(true, filled) else Outcome(false, Destroy(filled, |rules|))
  }

  /** All or nothing: a valid clause adds exactly its rule after the existing
      ones; an invalid one leaves the layer as it was. */
  lemma ReadClauseCommitsOrRollsBack(ts: seq<Token>, rules: seq<Rule>, d: Dbdist)
    ensures ReadClause(ts, rules, d).valid <==> Parse(ts, d).Some?
    ensures Parse(ts, d).Some? ==> ReadClause(ts, rules, d).rules == rules + [Parse(ts, d).value]
    ensures Parse(ts, d).None? ==> ReadClause(ts, rules, d).rules == rules
  {
    var created := rules + [NewRule()];
    var s := ParseCornerSpacing(ts, NewRule(), d);
    var filled := created[|rules| := s.rule];
    assert created[|rules|] == NewRule();
    assert filled == rules + [s.rule];
    assert filled[..|rules|] == rules;
    assert filled[|rules| + 1..] == [];
  }

  /** A committed rule always keeps the structural invariants. */
  lemma CommittedRuleConsistent(ts: seq<Token>, rules: seq<Rule>, d: Dbdist)
    requires ReadClause(ts, rules, d).valid
    ensures |ReadClause(ts, rules, d).rules| == |rules| + 1
    ensures Consistent(ReadClause(ts, rules, d).rules[|rules|])
  {
    ReadClauseCommitsOrRollsBack(ts, rules, d);
    ParsedRuleConsistent(ts, d);
  }

  /** Number of accepted clauses among `clauses`. */
  function Accepted(clauses: seq<seq<Token>>, d: Dbdist): (n: nat)
    ensures n <= |clauses|
  {
    if clauses == [] then 0
    else Accepted(clauses[..|clauses| - 1], d) + (if Parse(clauses[|clauses| - 1], d).Some? then 1 else 0)
  }

  lemma AcceptedStep(clauses: seq<seq<Token>>, i: nat, d: Dbdist)
    requires i < |clauses|
    ensures Accepted(clauses[..i + 1], d) == Accepted(clauses[..i], d) + (if Parse(clauses[i], d).Some? then 1 else 0)
  {
    assert clauses[..i + 1][..i] == clauses[..i];
  }

  /** The rules a reading added after `base` are consistent, and stay so after one more clause. */
  predicate AddedConsistent(rules: seq<Rule>, base: seq<Rule>)
  {
    |base| <= |rules| && rules[..|base|] == base && forall j :: |base| <= j < |rules| ==> Consistent(rules[j])
  }

  /** One reading step: the layer grows by one rule exactly when the clause is
      accepted, and what the earlier steps added stays consistent. */
  method ReadOne(ts: seq<Token>, rules: seq<Rule>, base: seq<Rule>, d: Dbdist) returns (rules': seq<Rule>)
    requires AddedConsistent(rules, base)
    ensures |rules'| == |rules| + (if Parse(ts, d).Some? then 1 else 0)
    ensures AddedConsistent(rules', base)
  {
    ReadClauseCommitsOrRollsBack(ts, rules, d);
    rules' := ReadClause(ts, rules, d).rules;
    if Parse(ts, d).Some? {
      ParsedRuleConsistent(ts, d);
      assert rules' == rules + [Parse(ts, d).value];
      assert rules'[..|base|] == rules[..|base|];
    }
  }

  /**
   * Reads clauses one after another into the layer. Earlier rules are never
   * touched, the layer grows by one rule per accepted clause, and every rule
   * the reading added keeps the structural invariants.
   */
  method ReadClauses(clauses: seq<seq<Token>>, rules: seq<Rule>, d: Dbdist) returns (rules': seq<Rule>)
    ensures |rules'| == |rules| + Accepted(clauses, d)
    ensures rules'[..|rules|] == rules
    ensures forall j :: |rules| <= j < |rules'| ==> Consistent(rules'[j])
  {
    rules' := rules;
    var i := 0;
    while i < |clauses|
      invariant 0 <= i <= |clauses|
      invariant |rules'| == |rules| + Accepted(clauses[..i], d)
      invariant AddedConsistent(rules', rules)
    {
      AcceptedStep(clauses, i, d);
      rules' := ReadOne(clauses[i], rules', rules, d);
      i := i + 1;
    }
    assert clauses[..i] == clauses;
  }
}

=== FILE: lef_tokens.dfy ===
/**
 * Tokens of one LEF58 layer-property clause, as the grammar of the
 * CORNERSPACING clause sees them once whitespace has been skipped.
 */
module LefTokens {

  /** The literal keywords the CORNERSPACING grammar matches. */
  datatype Keyword =
    | CORNERSPACING
    | CONVEXCORNER
    | CONCAVECORNER
    | SAMEMASK
    | CORNERONLY
    | CORNERTOCORNER
    | EXCEPTEOL
    | EXCEPTJOGLENGTH
    | EDGELENGTH
    | INCLUDELSHAPE
    | MINLENGTH
    | EXCEPTNOTCH
    | EXCEPTSAMENET
    | EXCEPTSAMEMETAL
    | WIDTH
    | SPACING

  datatype Token =
    | Kw(keyword: Keyword)
      /** Any other bare word, e.g. TRIANGLECORNER; no production matches it. */
    | Word(text: string)
      /** A decimal literal, already read as a number. */
    | Num(value: real)
      /** The clause terminator ";". */
    | Semi

  predicate StartsWith(ts: seq<Token>, t: Token)
  {
    |ts| > 0 && ts[0] == t
  }

  predicate StartsWithNum(ts: seq<Token>)
  {
    |ts| > 0 && ts[0].Num?
  }

  /** Number of occurrences of `t` in `ts`. */
  function Count(ts: seq<Token>, t: Token): (n: nat)
    ensures n <= |ts|
    ensures n == 0 <==> t !in ts
  {
    if ts == [] then 0 else (if ts[0] == t then 1 else 0) + Count(ts[1..], t)
  }

  lemma {:induction false} CountAppend(a: seq<Token>, b: seq<Token>, t: Token)
    ensures Count(a + b, t) == Count(a, t) + Count(b, t)
  {
    if a == [] {
      assert a + b == b;
    } else {
      assert (a + b)[1..] == a[1..] + b;
      CountAppend(a[1..], b, t);
    }
  }

  lemma AppendAssoc<T>(a: seq<T>, b: seq<T>, c: seq<T>)
    ensures a + (b + c) == (a + b) + c
  {
  }

  lemma Split1(ts: seq<Token>)
    requires |ts| >= 1
    ensures ts == [ts[0]] + ts[1..]
  {
  }

  lemma Split2(ts: seq<Token>)
    requires |ts| >= 2
    ensures ts == [ts[0], ts[1]] + ts[2..]
  {
  }

  /** Reassembles a sequence whose first token is followed by `mid + rest`. */
  lemma Glue1(ts: seq<Token>, mid: seq<Token>, rest: seq<Token>)
    requires |ts| >= 1 && ts[1..] == mid + rest
    ensures ts == ([ts[0]] + mid) + rest
  {
    Split1(ts);
    AppendAssoc([ts[0]], mid, rest);
  }

  /** Reassembles a sequence whose first two tokens are followed by `mid + rest`. */
  lemma Glue2(ts: seq<Token>, mid: seq<Token>, rest: seq<Token>)
    requires |ts| >= 2 && ts[2..] == mid + rest
    ensures ts == ([ts[0], ts[1]] + mid) + rest
  {
    Split2(ts);
    AppendAssoc([ts[0], ts[1]], mid, rest);
  }

  lemma ConsTwo(x: Token, y: Token, rest: seq<Token>)
    ensures [x] + ([y] + rest) == [x, y] + rest
  {
  }

  /** Dropping the first token of `[x] + a` followed by `rest`. */
  lemma DropFirst(x: Token, a: seq<Token>, rest: seq<Token>)
    ensures (([x] + a) + rest)[1..] == a + rest
  {
    assert ([x] + a) + rest == [x] + (a + rest);
  }

  // ------------------------------------------------------ keyword marks

  /**
   * One bit per keyword: which keywords a token sequence or a rule mentions.
   * A record rather than a `set<Keyword>`: an equality of two `Marks` is a
   * field-by-field comparison, where a set equality makes the solver reason
   * by extensionality over every keyword, and the proofs that compare a
   * rule's flags with its tokens rest on many such equalities. `Marked`
   * relates the two views.
   */
  datatype Marks = Marks(
    cornerSpacing: bool, convexCorner: bool, concaveCorner: bool, sameMask: bool,
    cornerOnly: bool, cornerToCorner: bool, exceptEol: bool, exceptJogLength: bool,
    edgeLength: bool, includeLShape: bool, minLength: bool, exceptNotch: bool,
    exceptSameNet: bool, exceptSameMetal: bool, width: bool, spacing: bool)

  /** The bit of keyword `k`. */
  predicate Marked(m: Marks, k: Keyword)
  {
    match k
    case CORNERSPACING => m.cornerSpacing
    case CONVEXCORNER => m.convexCorner
    case CONCAVECORNER => m.concaveCorner
    case SAMEMASK => m.sameMask
    case CORNERONLY => m.cornerOnly
    case CORNERTOCORNER => m.cornerToCorner
    case EXCEPTEOL => m.exceptEol
    case EXCEPTJOGLENGTH => m.exceptJogLength
    case EDGELENGTH => m.edgeLength
    case INCLUDELSHAPE => m.includeLShape
    case MINLENGTH => m.minLength
    case EXCEPTNOTCH => m.exceptNotch
    case EXCEPTSAMENET => m.exceptSameNet
    case EXCEPTSAMEMETAL => m.exceptSameMetal
    case WIDTH => m.width
    case SPACING => m.spacing
  }

  /** No keyword marked. */
  function NoMarks(): Marks
  {
    Marks(false, false, false, false, false, false, false, false,
      false, false, false, false, false, false, false, false)
  }

  /** The keywords marked in either. */
  function Union(a: Marks, b: Marks): Marks
  {
    Marks(a.cornerSpacing || b.cornerSpacing, a.convexCorner || b.convexCorner,
      a.concaveCorner || b.concaveCorner, a.sameMask || b.sameMask,
      a.cornerOnly || b.cornerOnly, a.cornerToCorner || b.cornerToCorner,
      a.exceptEol || b.exceptEol, a.exceptJogLength || b.exceptJogLength,
      a.edgeLength || b.edgeLength, a.includeLShape || b.includeLShape,
      a.minLength || b.minLength, a.exceptNotch || b.exceptNotch,
      a.exceptSameNet || b.exceptSameNet, a.exceptSameMetal || b.exceptSameMetal,
      a.width || b.width, a.spacing || b.spacing)
  }

  lemma UnionAssoc(a: Marks, b: Marks, c: Marks)
    ensures Union(a, Union(b, c)) == Union(Union(a, b), c)
  {
  }

  /** The keywords that occur in `ts`. */
  function Mentions(ts: seq<Token>): (m: Marks)
    ensures forall k :: Marked(m, k) <==> Kw(k) in ts
  {
    Marks(Kw(CORNERSPACING) in ts, Kw(CONVEXCORNER) in ts, Kw(CONCAVECORNER) in ts,
      Kw(SAMEMASK) in ts, Kw(CORNERONLY) in ts, Kw(CORNERTOCORNER) in ts,
      Kw(EXCEPTEOL) in ts, Kw(EXCEPTJOGLENGTH) in ts, Kw(EDGELENGTH) in ts,
      Kw(INCLUDELSHAPE) in ts, Kw(MINLENGTH) in ts, Kw(EXCEPTNOTCH) in ts,
      Kw(EXCEPTSAMENET) in ts, Kw(EXCEPTSAMEMETAL) in ts, Kw(WIDTH) in ts, Kw(SPACING) in ts)
  }

  lemma MentionsAppend(a: seq<Token>, b: seq<Token>)
    ensures Mentions(a + b) == Union(Mentions(a), Mentions(b))
  {
  }
}

=== FILE: wrappers.dfy ===
/** The optional-value datatype used for omitted numbers and for the parse result. */
module Wrappers {

  datatype Option<+T> = None | Some(value: T)
}
